=== FILE: README.md ===
# Admin panel core, modelled in Dafny

This project models the access control and the list pages of the ABNP admin
panel, a React front end. It covers five parts:

- **`useAuthAdmin`** (`AuthAdmin`). One run of `checkAdminAuth` is a pure
  function of what the backend answers. That is the session fetch and the
  `get_user_role` call, each of which may return data, return an error, or
  throw. The function gives a verdict: grant the admin user, or deny and
  send the browser to `/auth` or `/`. It also gives the effects the run
  issues, meaning the role query and the console logs.

  The hook around it is a state machine over `(adminUser, loading, mounted)`,
  driven by three events: a check settles, an auth event arrives, or the
  component unmounts. Navigation, the start of a new check, and the
  subscription and unsubscription are output effects. `Trace` folds a whole event sequence starting from the mount.
- **`AdminProtectedRoute`** (`ProtectedRoute`). The three-way render:
  skeleton while loading, nothing without an admin user, otherwise the
  children. It is stated over every reachable hook state.
- **`AdminSidebar`** (`Sidebar`). The eight menu entries, `isActive`
  (exact equality or a raw `startsWith`), and `getNavClass`.
- **The record pages** (`Webhooks`, `Offers`, `Communication`, `Courses`,
  `Articles`, `Users`). The create/edit dialog, the per-id switches, the
  search filters, the checkbox selection, the order sort, the YouTube id
  extraction, and the summary cards.
- **Shared helpers.** `Common` holds counting, filtering, point-wise update
  and sums over sequences. `Text` holds ASCII case mapping, `startsWith`
  and `includes`.

Some behaviours of the code are modelled exactly as written:

- **The race between a late check and a sign-out.** The hook guards each
  state update only with the `mounted` flag. It does not check whether a
  later event has superseded the check that is settling. As a result, a
  check that settles after a `SIGNED_OUT`, while the hook is still
  mounted, installs its admin user (`AuthAdmin.StaleCheckWinsAfterSignOut`).
  The sign-out's own `navigate('/')` usually leaves the admin route first.
  The cleanup then runs, and the late check becomes a no-op. The race is
  real only if the guard stays mounted, for example while the navigation
  is still pending. The model follows the code, which has no staleness
  guard, rather than the intended behaviour of discarding results from
  superseded runs.
- **Events after unmount.** The cleanup clears `mounted` and unsubscribes
  in the same step. After that, auth events are no longer delivered, and a
  settling check changes nothing.
- **The blocked card and the badge disagree.** The users page counts only
  the status `"blocked"` on its "blocked" card. The badge, however, labels
  every status other than `"active"` as blocked.
  `Users.BlockedCardVersusBadges` states exactly when the two agree.

## Model

| member | source | states |
|---|---|---|
| AuthAdmin.EffectiveRole | src/hooks/useAuthAdmin.tsx:48 | a missing role counts as `user`; a present role is kept |
| AuthAdmin.CheckAdminAuth | src/hooks/useAuthAdmin.tsx:21-78 | access is granted iff there is a session user and the role lookup returns admin or moderator; the grant carries that user and role with consistent flags; the sign-in page is chosen iff the session was fetched without a user; the role is queried first exactly when a user exists, and exactly once; at most one error is logged; the auth-check error is logged iff a fetch threw, and the role error iff the lookup returned an error |
| AuthAdmin.NoSessionSkipsLookup | src/hooks/useAuthAdmin.tsx:23-32 | without a session user the outcome does not depend on the role backend, and is a plain redirect to `/auth` with no effects |
| AuthAdmin.FailuresMatchDenial | src/hooks/useAuthAdmin.tsx:38-77 | a role error, a thrown lookup and a thrown session fetch all end with the same denial as a plain `user` role; a missing role behaves exactly like `user` |
| AuthAdmin.Next | src/hooks/useAuthAdmin.tsx:80-98 | once unmounted nothing changes and nothing navigates; only the cleanup clears `mounted`, and it issues the unsubscription; at most one navigation per event; loading never comes back; a settled check stops loading and installs the admin on a grant, or clears it and navigates on a denial; a settled check issues exactly its run's role query and logs, followed by the navigation only when it denies a mounted hook; `SIGNED_OUT` clears the user and navigates home; `SIGNED_IN` with a session starts a new check; other events do nothing |
| AuthAdmin.Mounted | src/hooks/useAuthAdmin.tsx:80-93 | mounting starts with no user, loading and mounted, then starts the first check and subscribes, in that order |
| AuthAdmin.NextPreservesValid | src/hooks/useAuthAdmin.tsx:52-69 | every transition keeps the invariant: an installed user has a staff role with matching flags, and nobody is installed while loading |
| AuthAdmin.TraceValid | src/hooks/useAuthAdmin.tsx:14-101 | every state reachable from the mount satisfies that invariant |
| AuthAdmin.LoadingUntilSettled | src/hooks/useAuthAdmin.tsx:15-69 | until some check settles, the hook is loading with no user |
| AuthAdmin.QuietAfterUnmount | src/hooks/useAuthAdmin.tsx:95-98 | after the cleanup, no event changes the state; the only later effects are a late run's role queries and error logs, so nothing navigates, starts a check or touches the subscription |
| AuthAdmin.StaleCheckWinsAfterSignOut | src/hooks/useAuthAdmin.tsx:84-90 | after any history that leaves the hook mounted, a granting check that settles after a sign-out still installs its admin user and ends loading |
| ProtectedRoute.Render | src/components/admin/AdminProtectedRoute.tsx:12-33 | skeleton iff loading; nothing iff loaded without a user; children iff loaded with a user |
| ProtectedRoute.Guard | src/components/admin/AdminProtectedRoute.tsx:9-33 | after mounting and any events, the guard shows the skeleton iff the hook is loading, nothing iff it has settled without a user, and the children iff it has settled with one |
| ProtectedRoute.ChildrenOnlyForStaff | src/components/admin/AdminProtectedRoute.tsx:9-33 | in every reachable state, children are shown only to an admin or a moderator with consistent flags |
| ProtectedRoute.SkeletonUntilSettled | src/components/admin/AdminProtectedRoute.tsx:12-27 | before any check settles, the skeleton is shown |
| ProtectedRoute.FirstCheckDecides | src/components/admin/AdminProtectedRoute.tsx:9-33 | when the first check settles after any auth events that left the guard mounted: the earlier effects are kept; children iff access was granted; on a denial nothing is rendered; the settle itself issues exactly one navigation on a denial, to the denial's target, and none on a grant |
| Sidebar.MenuItems | src/components/admin/AdminSidebar.tsx:28-70 | the eight entries with their titles and URLs, only the dashboard exact |
| Sidebar.IsActive | src/components/admin/AdminSidebar.tsx:78-83 | an exact item is active iff the path equals its URL, any other iff its URL is a sequence prefix of the path |
| Sidebar.PrefixIsNotSegment | src/components/admin/AdminSidebar.tsx:82 | any path that extends a non-dashboard entry's URL by arbitrary text highlights that entry (`/admin/usersettings` highlights the users entry), because the match is by characters and not by path segment |
| Sidebar.OwnUrlIsActive | src/components/admin/AdminSidebar.tsx:78-83 | an item's own URL always highlights it |
| Sidebar.DashboardOnlyOnItself | src/components/admin/AdminSidebar.tsx:29-34 | the dashboard entry is active only on `/admin` itself |
| Sidebar.UrlsIndependent | src/components/admin/AdminSidebar.tsx:35-69 | no non-dashboard entry's URL is a prefix of another's |
| Sidebar.AtMostOneActive | src/components/admin/AdminSidebar.tsx:28-83 | no two different entries are highlighted at the same time |
| Sidebar.ActiveItems | src/components/admin/AdminSidebar.tsx:116-128 | the highlighted entries are exactly the active ones, and there is at most one |
| Sidebar.NavClass | src/components/admin/AdminSidebar.tsx:85-90 | the highlighted class iff the entry is active, otherwise the plain class |
| Text.StartsWithIsPrefix | src/components/admin/AdminSidebar.tsx:82 | `startsWith` holds iff the argument is a sequence prefix |
| Text.IncludesIffOccurs | src/pages/admin/AdminArticles.tsx:57-60 | `includes` holds iff the needle occurs at some position |
| Webhooks.Merge | src/pages/admin/AdminWebhooks.tsx:104 | the merged row carries the form's fields and keeps every other field of the row |
| Webhooks.ApplyEdit | src/pages/admin/AdminWebhooks.tsx:101-106 | rows with the edited id take the form's fields; all other rows are unchanged; no row changes its id, status, timing or creation date |
| Webhooks.NewWebhook | src/pages/admin/AdminWebhooks.tsx:113-120 | a new webhook carries the form, is `pending`, has response time 0 and has never been triggered |
| Webhooks.HandleSubmit | src/pages/admin/AdminWebhooks.tsx:99-134 | an edit rewrites the captured row, a create appends one row at the end; either way the form is reset, the dialog closes and editing ends |
| Webhooks.OpenEditDialog | src/pages/admin/AdminWebhooks.tsx:179-188 | captures the row, loads exactly its fields into the form, opens the dialog, and leaves the list alone |
| Webhooks.EditRoundTrip | src/pages/admin/AdminWebhooks.tsx:99-188 | opening a listed webhook and submitting the form untouched leaves the list unchanged (ids unique) |
| Webhooks.ToggleActive | src/pages/admin/AdminWebhooks.tsx:136-141 | only `isActive` of the matching rows flips; nothing else changes |
| Webhooks.ToggleActiveTwice | src/pages/admin/AdminWebhooks.tsx:136-141 | switching twice restores the list |
| Webhooks.LogsFor | src/pages/admin/AdminWebhooks.tsx:191 | the shown logs are exactly that webhook's logs, in order, with as many entries as the input has logs of that webhook |
| Webhooks.ViewLogs | src/pages/admin/AdminWebhooks.tsx:190-194 | shows that webhook's logs and opens the logs dialog, without touching the data |
| Webhooks.ActiveCount | src/pages/admin/AdminWebhooks.tsx:351 | the length of the list of active webhooks: at most the total, 0 iff none is active, the total iff all are |
| Webhooks.CreateActiveCount | src/pages/admin/AdminWebhooks.tsx:113-121 | creating a webhook raises the card by one exactly when the new row is active |
| Webhooks.SuccessRate | src/pages/admin/AdminWebhooks.tsx:372 | 0 without logs; otherwise the integer nearest to 100 · successes / logs, ties rounded up; so 0 to 100, 0 without successes and 100 when every log succeeded |
| Webhooks.RoundedPercentBounds | src/pages/admin/AdminWebhooks.tsx:372 | rounding half up of `100·s/n` stays within 0 and 100 and hits the ends exactly |
| Offers.Merge | src/pages/admin/AdminOffers.tsx:71 | the merged offer carries the form's fields and keeps its id, counters and date |
| Offers.ApplyEdit | src/pages/admin/AdminOffers.tsx:68-73 | only offers with the edited id take the form's fields; no offer changes its counters |
| Offers.NewOffer | src/pages/admin/AdminOffers.tsx:80-86 | a new offer carries the form with zero clicks and conversions |
| Offers.HandleSubmit | src/pages/admin/AdminOffers.tsx:66-102 | an edit rewrites the captured offer, a create appends; the form is reset, the dialog closes and editing ends |
| Offers.OpenEditDialog | src/pages/admin/AdminOffers.tsx:128-139 | captures the offer, loads its fields into the form and opens the dialog |
| Offers.EditRoundTrip | src/pages/admin/AdminOffers.tsx:66-139 | opening a listed offer and submitting untouched leaves the list unchanged (ids unique) |
| Offers.ToggleFeatured | src/pages/admin/AdminOffers.tsx:104-109 | only `isFeatured` of the matching offers flips |
| Offers.ToggleActive | src/pages/admin/AdminOffers.tsx:116-121 | only `isActive` of the matching offers flips |
| Offers.TotalClicks | src/pages/admin/AdminOffers.tsx:149 | the total bounds every offer's clicks and is zero iff no offer has clicks |
| Offers.TotalConversions | src/pages/admin/AdminOffers.tsx:150 | the total bounds every offer's conversions and is zero iff no offer has any |
| Offers.TotalsAreSums | src/pages/admin/AdminOffers.tsx:149-150 | a single offer's totals are its own counters, and the totals of two concatenated lists add up, so each total is the sum of the counters |
| Offers.TotalsUnchangedByEdits | src/pages/admin/AdminOffers.tsx:66-151 | the switches, editing and creating leave both totals unchanged |
| Offers.ConversionRate | src/pages/admin/AdminOffers.tsx:151 | the literal "0" iff there are no clicks, otherwise the conversions-to-clicks ratio of the totals |
| Offers.CouponInput | src/pages/admin/AdminOffers.tsx:208 | the typed coupon keeps its length, has no lower-case letter, and lower-cases to what the typed text lower-cases to, so only letters change and only their case |
| Text.LowerOfUpper | src/pages/admin/AdminOffers.tsx:208 | upper-casing then lower-casing gives the lower-cased input |
| Offers.CouponInputIdempotent | src/pages/admin/AdminOffers.tsx:208 | re-entering an upper-cased coupon changes nothing |
| Communication.RecipientCount | src/pages/admin/AdminCommunication.tsx:96-100 | "custom" counts the selection; every other audience counts the contacts accepting the channel: 0 iff none accepts, all iff all accept |
| Communication.RecipientsAreCounted | src/pages/admin/AdminCommunication.tsx:96-100 | outside "custom", one contact counts one iff it accepts the channel, and the count over two lists of contacts is the sum of their counts |
| Communication.NamedAudiencesAreAll | src/pages/admin/AdminCommunication.tsx:96-100 | "active_users" and "course_completed" count the same as "all" |
| Communication.NewMessage | src/pages/admin/AdminCommunication.tsx:102-117 | an immediate message is `sent` with only a send time; otherwise it is `scheduled` with a schedule and a creation time |
| Communication.HandleSubmit | src/pages/admin/AdminCommunication.tsx:93-137 | the new message goes first and the rest follow unchanged; form, selection and dialog are reset |
| Communication.SetChecked | src/pages/admin/AdminCommunication.tsx:256-261 | checking appends the id; unchecking removes every copy of it, keeps the others in order, and shrinks the list by the copies removed |
| Communication.TotalSent | src/pages/admin/AdminCommunication.tsx:181 | the length of the list of sent messages: at most the total, 0 iff none is sent, the total iff all are |
| Communication.TotalScheduled | src/pages/admin/AdminCommunication.tsx:182 | the length of the list of scheduled messages: at most the total, 0 iff none is scheduled, the total iff all are |
| Communication.TotalRecipients | src/pages/admin/AdminCommunication.tsx:183 | the total bounds every message's recipients and is zero iff every message has none |
| Communication.RecipientTotalsAreSums | src/pages/admin/AdminCommunication.tsx:183 | one message's total is its own recipient count, and the total of two concatenated lists adds up, so the card is the sum over all messages |
| Communication.SentAndScheduledBounded | src/pages/admin/AdminCommunication.tsx:181-182 | sent plus scheduled is at most the total, with equality iff every message is one of the two |
| Communication.SubmitUpdatesTotals | src/pages/admin/AdminCommunication.tsx:93-183 | a submission adds its recipients to the total and one to the sent or the scheduled card |
| Courses.Initial | src/pages/admin/AdminCourses.tsx:71-78 | the first draft proposes position `length + 1` |
| Courses.HandleAddVideo | src/pages/admin/AdminCourses.tsx:80-96 | appends the draft as video `length + 1` and keeps the rest; the next draft proposes the position after it; the dialog closes |
| Courses.AddKeepsIdsConsecutive | src/pages/admin/AdminCourses.tsx:80-86 | with ids 1..n, adding keeps them 1..n+1, so the new id is fresh |
| Courses.ToggleVideoStatus | src/pages/admin/AdminCourses.tsx:98-102 | only `active` of the matching videos flips |
| Courses.InsertByOrder | src/pages/admin/AdminCourses.tsx:289 | inserting into a sorted table keeps it sorted and adds exactly that video |
| Courses.SortByOrder | src/pages/admin/AdminCourses.tsx:289 | the table is sorted by order and is a permutation of the videos |
| Courses.ScanForId | src/pages/admin/AdminCourses.tsx:104-107 | any id found is eleven id characters that occur in the URL |
| Courses.PresentIdIsFound | src/pages/admin/AdminCourses.tsx:104-107 | a URL containing a marker followed by eleven id characters always yields an id |
| Courses.GetYouTubeId | src/pages/admin/AdminCourses.tsx:104-107 | any id found is eleven id characters that occur in the URL; a URL naming neither YouTube host gives none |
| Courses.YouTubeIdIsFound | src/pages/admin/AdminCourses.tsx:105 | `youtube.com` directly followed by `/v/`, `/e/` or `/embed/` and eleven id characters yields an id, as the pattern's second `youtube.com/` branch does |
| Courses.ShortLinkIdIsFound | src/pages/admin/AdminCourses.tsx:105 | `youtu.be/` directly followed by eleven id characters yields an id, as the pattern's `youtu.be/` branch does |
| Courses.QueryIdIsFound | src/pages/admin/AdminCourses.tsx:105 | `youtube.com/`, then printable non-space text, then `?v=` or `&v=` and eleven id characters yields an id, as the pattern's query branch does |
| Articles.FilteredArticles | src/pages/admin/AdminArticles.tsx:57-60 | keeps, in order and with every copy, exactly the articles whose title or author contains the term regardless of case; the empty term keeps all |
| Articles.ToggleFeatured | src/pages/admin/AdminArticles.tsx:82-87 | only `featured` of the matching articles flips |
| Articles.ToggleActive | src/pages/admin/AdminArticles.tsx:94-99 | only `isActive` of the matching articles flips |
| Articles.TogglesCommute | src/pages/admin/AdminArticles.tsx:82-99 | switches on any two ids commute, whichever flag each flips |
| Articles.TogglesUndo | src/pages/admin/AdminArticles.tsx:82-99 | switching the same id twice restores the list |
| Articles.ActiveCount | src/pages/admin/AdminArticles.tsx:188 | the length of the list of visible articles: at most the total, 0 iff none is visible, the total iff all are |
| Articles.FeaturedCount | src/pages/admin/AdminArticles.tsx:198 | the length of the list of featured articles: at most the total, 0 iff none is featured, the total iff all are |
| Users.FilteredUsers | src/pages/admin/AdminUsers.tsx:57-60 | keeps, in order and with every copy, exactly the users whose name or e-mail contains the term regardless of case; the empty term keeps all |
| Users.ActiveCount | src/pages/admin/AdminUsers.tsx:114 | the length of the list of active users: at most the total, 0 iff none is active, the total iff all are |
| Users.BlockedCount | src/pages/admin/AdminUsers.tsx:128 | the length of the list of users with status "blocked": at most the total, 0 iff none is, the total iff all are |
| Users.StatusBadge | src/pages/admin/AdminUsers.tsx:62-74 | the active badge iff the status is "active", the blocked badge otherwise |
| Users.StatusCardsBounded | src/pages/admin/AdminUsers.tsx:114-128 | active plus blocked is at most the total, equal iff every status is one of the two |
| Users.BlockedCardVersusBadges | src/pages/admin/AdminUsers.tsx:62-128 | blocked badges are the total minus the active users; the blocked card is at most that, and equal iff every status is "active" or "blocked" |

## Left out

- Supabase, `navigate`, toasts and the console are not called. The backend's answers are inputs to `CheckAdminAuth`. Navigation, role queries, logs, new checks and unsubscription are output effects.
- The real interleaving of asynchronous runs is not explored. A run is one atomic `CheckSettled` event, carrying both backend answers, in whichever order the events are given.
- The effect's `[navigate]` dependency is not modelled. The effect is taken to run once per mount.
- Role strings other than `admin`, `moderator` and `user` are not modelled. The backend's role is a closed enumeration, and a missing value means `user`.
- Ids from `Date.now()`, `new Date().toISOString()` and the date conversions are parameters.
- `testWebhook` is left out. It depends on `Math.random` and a timer.
- Webhooks.SuccessRate: rounds the exact ratio half up instead of rounding the floating-point product that `Math.round` sees. The two can differ only at floating-point ties.
- Offers.ConversionRate: returns the ratio of the totals instead of the `toFixed(1)` string, because floating-point formatting is not modelled.
- Offers.TotalClicks: counters are natural numbers, so the sum of possibly negative counters is not covered. Offers.TotalConversions makes the same assumption.
- Communication.TotalRecipients: the message count is a natural number, so the `|| 0` fallback for a missing count is not modelled.
- An invalid scheduled date makes `toISOString` throw. This is not modelled, because the scheduled time is an input.
- Text.Lower: maps ASCII letters only. Unicode case mapping in `toLowerCase` and `toUpperCase` is not modelled.
- Courses.GetYouTubeId: replaces the regular expression with a scan for the markers `youtu.be/`, `/embed/`, `/v/`, `/e/`, `?v=` and `&v=` followed by eleven id characters, guarded by the host. The model promises the shape of the result, and that the URLs the pattern's `v/`, `e/`, `embed/`, query and `youtu.be/` branches accept give an id. It does not promise that the id found is the one the regular expression picks on every URL. The `youtube.com/<a>/<b>/` form is not recognised.
- Courses.ScanForId: promises the shape of any id it returns, and with `Courses.PresentIdIsFound` that a marker followed by an id is always found. When several ids occur, it does not state which one is returned.
- Courses.YouTubeIdIsFound: the scan also accepts a marker away from the host, as in `https://x.com/v/ABCDEFGHIJK?u=youtube.com/`. So the model yields an id on some URLs for which the pattern gives none, and the lemmas state findability only for the host-adjacent shapes the pattern accepts.
- Courses.SortByOrder: states sortedness and permutation, but not the stability of `Array.prototype.sort`.
- The course table calls `videos.sort` during render, which sorts the state array in place. The model keeps the page's list in insertion order and states only the sorted view (`Courses.SortByOrder`), because a render that mutates state has no pure counterpart.
- Dialog open/close toggles and form field edits are plain record updates and are not stated separately. Only the reset after submit and the loading done by `openEditDialog` are modelled. The captured edit row survives a dialog closed with Escape, and the model keeps that field as it is.
- The articles page's `handleRefreshRSS` is left out. It only waits on a timer and shows a toast.
- The settings, dashboard, landing and layout pages are left out. They render fixed content.

=== FILE: articles.dfy ===
/** `AdminArticles`: the blog article list, its search box, the featured
    and visible switches, and the count cards. */
module Articles {
  import opened Common
  import opened Text

  datatype Article = Article(
    id: string,
    title: string,
    excerpt: string,
    author: string,
    publishedAt: string,
    externalUrl: string,
    isActive: bool,
    featured: bool,
    source: string)

  /** An article is listed when its title or its author contains the term,
      ignoring case. */
  predicate Matches(a: Article, term: string)
  {
    MatchesTerm(a.title, term) || MatchesTerm(a.author, term)
  }

  /** `Matches` for one term, as a filter. */
  function Matching(term: string): Article -> bool
  {
    (a: Article) => Matches(a, term)
  }

  /** `filteredArticles`: the matching articles, in list order. */
  function FilteredArticles(articles: seq<Article>, term: string): (r: seq<Article>)
    ensures IsSubseq(r, articles)
    ensures forall i :: 0 <= i < |r| ==> r[i] in articles && Matches(r[i], term)
    ensures forall i :: 0 <= i < |articles| && Matches(articles[i], term) ==> articles[i] in r
    ensures term == "" ==> r == articles
    ensures |r| == Count(articles, Matching(term))
  {
    var keep := Matching(term);
    if term == "" then
      forall i | 0 <= i < |articles|
        ensures keep(articles[i])
      {
        EmptyIsIncluded(Lower(articles[i].title));
      }
      FilterKeepsAll(articles, keep);
      Filter(articles, keep)
    else
      Filter(articles, keep)
  }

  /** `toggleFeatured`: flip `featured` of the articles with that id. */
  function ToggleFeatured(articles: seq<Article>, id: string): (r: seq<Article>)
    ensures |r| == |articles|
    ensures forall i :: 0 <= i < |articles| ==>
      && r[i].featured == (if articles[i].id == id then !articles[i].featured else articles[i].featured)
      && r[i].(featured := articles[i].featured) == articles[i]
  {
    MapWhere(articles, (a: Article) => a.id == id, (a: Article) => a.(featured := !a.featured))
  }

  /** `toggleActive`: flip `isActive` of the articles with that id. */
  function ToggleActive(articles: seq<Article>, id: string): (r: seq<Article>)
    ensures |r| == |articles|
    ensures forall i :: 0 <= i < |articles| ==>
      && r[i].isActive == (if articles[i].id == id then !articles[i].isActive else articles[i].isActive)
      && r[i].(isActive := articles[i].isActive) == articles[i]
  {
    MapWhere(articles, (a: Article) => a.id == id, (a: Article) => a.(isActive := !a.isActive))
  }

  /** Switches on any two ids commute. */
  lemma TogglesCommute(articles: seq<Article>, a: string, b: string)
    ensures ToggleActive(ToggleActive(articles, a), b) == ToggleActive(ToggleActive(articles, b), a)
    ensures ToggleFeatured(ToggleFeatured(articles, a), b) == ToggleFeatured(ToggleFeatured(articles, b), a)
    ensures ToggleActive(ToggleFeatured(articles, a), b) == ToggleFeatured(ToggleActive(articles, b), a)
  {
    var x, y := ToggleActive(ToggleActive(articles, a), b), ToggleActive(ToggleActive(articles, b), a);
    assert forall i :: 0 <= i < |articles| ==> x[i] == y[i];
    x, y := ToggleFeatured(ToggleFeatured(articles, a), b), ToggleFeatured(ToggleFeatured(articles, b), a);
    assert forall i :: 0 <= i < |articles| ==> x[i] == y[i];
    x, y := ToggleActive(ToggleFeatured(articles, a), b), ToggleFeatured(ToggleActive(articles, b), a);
    assert forall i :: 0 <= i < |articles| ==> x[i] == y[i];
  }

  /** Switching the same article twice gives the list back. */
  lemma TogglesUndo(articles: seq<Article>, a: string)
    ensures ToggleActive(ToggleActive(articles, a), a) == articles
    ensures ToggleFeatured(ToggleFeatured(articles, a), a) == articles
  {
    var x := ToggleActive(ToggleActive(articles, a), a);
    assert forall i :: 0 <= i < |articles| ==> x[i] == articles[i];
    x := ToggleFeatured(ToggleFeatured(articles, a), a);
    assert forall i :: 0 <= i < |articles| ==> x[i] == articles[i];
  }

  predicate IsVisible(a: Article) { a.isActive }

  predicate IsFeatured(a: Article) { a.featured }

  /** The "Artigos Ativos" card. */
  function ActiveCount(articles: seq<Article>): (n: nat)
    ensures n == |Filter(articles, IsVisible)|
    ensures n <= |articles|
    ensures n == 0 <==> forall i :: 0 <= i < |articles| ==> !articles[i].isActive
    ensures n == |articles| <==> forall i :: 0 <= i < |articles| ==> articles[i].isActive
  {
    Count(articles, IsVisible)
  }

  /** The "Em Destaque" card. */
  function FeaturedCount(articles: seq<Article>): (n: nat)
    ensures n == |Filter(articles, IsFeatured)|
    ensures n <= |articles|
    ensures n == 0 <==> forall i :: 0 <= i < |articles| ==> !articles[i].featured
    ensures n == |articles| <==> forall i :: 0 <= i < |articles| ==> articles[i].featured
  {
    Count(articles, IsFeatured)
  }
}

=== FILE: auth_admin.dfy ===
/** The `useAuthAdmin` hook as an explicit state machine.

    The hook keeps two pieces of React state, `adminUser` and `loading`, and
    a closure flag `mounted`. On mount it starts `checkAdminAuth`; the
    authentication subscription may start further runs; the effect's cleanup
    clears `mounted` and unsubscribes. Everything the hook asks of the outside
    world (the session fetch, the `get_user_role` call, `navigate`,
    `console.error`) becomes either an input of a step or an `Effect` it
    emits. A run of `checkAdminAuth` is asynchronous: it is started by a
    `StartCheck` effect and finishes later as a `CheckSettled` event carrying
    the answers the backend gave. The hook has no per-run token, so runs that
    overlap settle in whatever order they finish. The subscription is the
    `Subscribe` effect of mounting and the `Unsubscribe` effect of the
    cleanup. */
module AuthAdmin {
  import opened Common

  datatype Role = Admin | Moderator | User

  /** The part of the backend's `User` the hook looks at. */
  datatype SessionUser = SessionUser(id: string)

  /** A session as returned by `getSession`; its `user` may be missing. */
  datatype Session = Session(user: Option<SessionUser>)

  /** How `supabase.auth.getSession()` ended: it threw, or it returned a
      possibly-null session. */
  datatype SessionFetch = SessionThrew | SessionFetched(session: Option<Session>)

  /** How `rpc('get_user_role', ...)` ended: it threw, it returned an
      `error`, or it returned `data`, which may be null. */
  datatype RoleFetch = RoleThrew | RoleError | RoleData(role: Option<Role>)

  datatype AdminUser = AdminUser(user: SessionUser, role: Role, isAdmin: bool, isModerator: bool)

  /** The two places the hook navigates to. */
  datatype Route = SignIn | Home

  function Url(r: Route): string
  {
    match r
    case SignIn => "/auth"
    case Home => "/"
  }

  /** Which `console.error` message is written. */
  datatype LogLine = RoleFetchFailed | AuthCheckFailed

  /** What the hook asks of the world. */
  datatype Effect =
    | QueryRole(userId: string)
    | LogError(line: LogLine)
    | Navigate(to: Route)
    | StartCheck
    | Subscribe
    | Unsubscribe

  /** The decision one run of `checkAdminAuth` reaches, before the
      `mounted` guard decides whether it is applied. */
  datatype Verdict = Grant(admin: AdminUser) | Deny(to: Route)

  /** A finished run: its verdict and the effects it had on the way that do
      not depend on `mounted` (the role query and the error log). */
  datatype CheckRun = CheckRun(verdict: Verdict, issued: seq<Effect>)

  /** `session?.user`: the signed-in user, if the fetch produced one. */
  function UserOf(f: SessionFetch): Option<SessionUser>
  {
    if f.SessionFetched? && f.session.Some? then f.session.value.user else None
  }

  /** The roles that open the admin area. */
  predicate IsStaff(role: Role)
  {
    role == Admin || role == Moderator
  }

  /** An `AdminUser` the hook can have built: a staff role whose two flags
      are derived from it. */
  predicate WellFormed(a: AdminUser)
  {
    && IsStaff(a.role)
    && a.isAdmin == (a.role == Admin)
    && a.isModerator == (a.role == Moderator)
  }

  /** The role a lookup settles on: `roleData || 'user'`. */
  function EffectiveRole(data: Option<Role>): (role: Role)
    ensures data.None? ==> role == User
    ensures data.Some? ==> role == data.value
  {
    if data.Some? then data.value else User
  }

  predicate IsQuery(e: Effect) { e.QueryRole? }

  predicate IsLog(e: Effect) { e.LogError? }

  /** One run of `checkAdminAuth`, given the backend's answers. */
  function CheckAdminAuth(session: SessionFetch, lookup: RoleFetch): (c: CheckRun)
    // Only a present user with a staff role gets in, and carries exactly
    // that user and role.
    ensures c.verdict.Grant? <==>
      UserOf(session).Some? && lookup.RoleData? && lookup.role.Some? && IsStaff(lookup.role.value)
    ensures c.verdict.Grant? ==>
      && c.verdict.admin.user == UserOf(session).value
      && c.verdict.admin.role == lookup.role.value
      && WellFormed(c.verdict.admin)
    // No user means the sign-in page; every other refusal means home.
    ensures c.verdict == Deny(SignIn) <==> session.SessionFetched? && UserOf(session).None?
    // The role is asked for, once, exactly when there is a user to ask about.
    ensures UserOf(session).None? ==> forall e :: e in c.issued ==> !e.QueryRole?
    ensures UserOf(session).Some? ==> |c.issued| >= 1 && c.issued[0] == QueryRole(UserOf(session).value.id)
    // An error is logged exactly when something failed.
    ensures LogError(AuthCheckFailed) in c.issued <==>
      session.SessionThrew? || (UserOf(session).Some? && lookup.RoleThrew?)
    ensures LogError(RoleFetchFailed) in c.issued <==> UserOf(session).Some? && lookup.RoleError?
    ensures forall e :: e in c.issued ==> e.QueryRole? || e.LogError?
    // The role is asked for at most once and at most one error is logged.
    ensures Count(c.issued, IsQuery) == (if UserOf(session).Some? then 1 else 0)
    ensures Count(c.issued, IsLog) <= 1
  {
    match session
    case SessionThrew => CheckRun(Deny(Home), [LogError(AuthCheckFailed)])
    case SessionFetched(s) =>
      if s.None? || s.value.user.None? then CheckRun(Deny(SignIn), [])
      else
        var u := s.value.user.value;
        match lookup
        case RoleThrew => CheckRun(Deny(Home), [QueryRole(u.id), LogError(AuthCheckFailed)])
        case RoleError => CheckRun(Deny(Home), [QueryRole(u.id), LogError(RoleFetchFailed)])
        case RoleData(data) =>
          var role := EffectiveRole(data);
          var isAdmin := role == Admin;
          var isModerator := role == Moderator;
          if !isAdmin && !isModerator then CheckRun(Deny(Home), [QueryRole(u.id)])
          else CheckRun(Grant(AdminUser(u, role, isAdmin, isModerator)), [QueryRole(u.id)])
  }

  /** With no session the role lookup is never issued: whatever the backend
      would have answered, the run is the same. */
  lemma NoSessionSkipsLookup(session: SessionFetch, a: RoleFetch, b: RoleFetch)
    requires session.SessionFetched? && UserOf(session).None?
    ensures CheckAdminAuth(session, a) == CheckAdminAuth(session, b)
    ensures CheckAdminAuth(session, a) == CheckRun(Deny(SignIn), [])
  {
  }

  /** A failing role lookup, returned or thrown, ends exactly where a plain
      `user` role ends: denied and sent home. */
  lemma FailuresMatchDenial(session: SessionFetch)
    requires UserOf(session).Some?
    ensures CheckAdminAuth(session, RoleError).verdict == CheckAdminAuth(session, RoleData(Some(User))).verdict
    ensures CheckAdminAuth(session, RoleThrew).verdict == CheckAdminAuth(session, RoleData(Some(User))).verdict
    ensures CheckAdminAuth(SessionThrew, RoleData(Some(Admin))).verdict == CheckAdminAuth(session, RoleData(Some(User))).verdict
    ensures CheckAdminAuth(session, RoleData(None)) == CheckAdminAuth(session, RoleData(Some(User)))
  {
  }

  /** The hook's state: the two React state cells and the cleanup flag. */
  datatype HookState = HookState(adminUser: Option<AdminUser>, loading: bool, mounted: bool)

  /** The events `onAuthStateChange` can deliver. */
  datatype AuthEventKind = SignedIn | SignedOut | OtherEvent

  /** What can happen to a mounted hook. */
  datatype Event =
    | CheckSettled(session: SessionFetch, lookup: RoleFetch)
    | AuthChange(kind: AuthEventKind, eventSession: Option<Session>)
    | Unmount

  /** A new state and the effects issued while reaching it. */
  datatype Step = Step(state: HookState, effects: seq<Effect>)

  /** Mounting: nobody signed in yet, loading, the first check started and
      then the auth subscription made. */
  const Mounted: Step := Step(HookState(None, true, true), [StartCheck, Subscribe])

  predicate IsNavigation(e: Effect) { e.Navigate? }

  /** How many `Navigate` effects a list of effects holds. */
  function Navigations(effects: seq<Effect>): nat
  {
    Count(effects, IsNavigation)
  }

  /** Effects that change neither what the user sees nor what the hook will
      do next: only a late run's role query and error log. */
  predicate Quiet(effects: seq<Effect>)
  {
    forall e :: e in effects ==> e.QueryRole? || e.LogError?
  }

  /** Applying a finished run: after unmount only its own effects remain;
      on a mounted hook the verdict is installed, and a denial navigates. */
  function Settle(st: HookState, c: CheckRun): (r: Step)
    requires Navigations(c.issued) == 0
    ensures !st.mounted ==> r == Step(st, c.issued)
    ensures st.mounted ==> r.effects == c.issued + (if c.verdict.Deny? then [Navigate(c.verdict.to)] else [])
    ensures st.mounted && c.verdict.Grant? ==> r.state == st.(adminUser := Some(c.verdict.admin), loading := false)
    ensures st.mounted && c.verdict.Deny? ==> r.state == st.(adminUser := None, loading := false)
    ensures Navigations(r.effects) == (if st.mounted && c.verdict.Deny? then 1 else 0)
  {
    if !st.mounted then Step(st, c.issued)
    else (
      match c.verdict
      case Deny(to) =>
        CountAppend(c.issued, [Navigate(to)], IsNavigation);
        Step(st.(adminUser := None, loading := false), c.issued + [Navigate(to)])
      case Grant(a) =>
        Step(st.(adminUser := Some(a), loading := false), c.issued)
    )
  }

  /** One transition of the hook. */
  function Next(st: HookState, ev: Event): (r: Step)
    // Once unmounted nothing changes and nothing is navigated or started.
    ensures !st.mounted ==> r.state == st && Quiet(r.effects)
    // Only the cleanup clears `mounted`, and it also unsubscribes.
    ensures !ev.Unmount? ==> r.state.mounted == st.mounted
    ensures ev.Unmount? && st.mounted ==> r == Step(st.(mounted := false), [Unsubscribe])
    // A step navigates at most once, and `loading` never comes back.
    ensures Navigations(r.effects) <= 1
    ensures !st.loading ==> !r.state.loading
    // A settled check on a mounted hook ends loading, and navigates iff it
    // denied access, to the place the check chose.
    ensures ev.CheckSettled? && st.mounted ==>
      && !r.state.loading
      && var v := CheckAdminAuth(ev.session, ev.lookup).verdict;
      && (v.Grant? ==> r.state.adminUser == Some(v.admin) && Navigations(r.effects) == 0)
      && (v.Deny? ==> r.state.adminUser.None? && Navigate(v.to) in r.effects)
    // A settled check issues exactly its run's effects, followed by the
    // navigation only when it denied a mounted hook.
    ensures ev.CheckSettled? && st.mounted ==>
      var c := CheckAdminAuth(ev.session, ev.lookup);
      r.effects == c.issued + (if c.verdict.Deny? then [Navigate(c.verdict.to)] else [])
    ensures ev.CheckSettled? && !st.mounted ==> r.effects == CheckAdminAuth(ev.session, ev.lookup).issued
    // Signing out clears the user and sends home without touching loading.
    ensures ev.AuthChange? && ev.kind == SignedOut && st.mounted ==>
      r == Step(st.(adminUser := None), [Navigate(Home)])
    // Signing in with a session starts one new check and changes nothing yet.
    ensures ev.AuthChange? && ev.kind == SignedIn && ev.eventSession.Some? && st.mounted ==>
      r == Step(st, [StartCheck])
    // Every other notification is ignored.
    ensures ev.AuthChange? && ev.kind == OtherEvent ==> r == Step(st, [])
    ensures ev.AuthChange? && ev.kind == SignedIn && ev.eventSession.None? ==> r == Step(st, [])
  {
    match ev
    case CheckSettled(session, lookup) =>
      var c := CheckAdminAuth(session, lookup);
      assert Count(c.issued, IsNavigation) == 0;
      Settle(st, c)
    case AuthChange(kind, session) =>
      // After cleanup the subscription is gone, so nothing is delivered.
      if !st.mounted then Step(st, [])
      else if kind == SignedOut then Step(st.(adminUser := None), [Navigate(Home)])
      else if kind == SignedIn && session.Some? then Step(st, [StartCheck])
      else Step(st, [])
    case Unmount =>
      if st.mounted then Step(st.(mounted := false), [Unsubscribe]) else Step(st, [])
  }

  /** Applies `next` along `events` from `st`, collecting every step's
      effects in order. */
  function Fold(next: (HookState, Event) -> Step, st: HookState, events: seq<Event>): Step
    decreases |events|
  {
    if |events| == 0 then Step(st, [])
    else
      var first := next(st, events[0]);
      var rest := Fold(next, first.state, events[1..]);
      Step(rest.state, first.effects + rest.effects)
  }

  /** Folding two event sequences one after the other is folding them
      concatenated. */
  lemma {:induction false} FoldAppend(next: (HookState, Event) -> Step, st: HookState, a: seq<Event>, b: seq<Event>)
    ensures var x := Fold(next, st, a);
            var y := Fold(next, x.state, b);
            Fold(next, st, a + b) == Step(y.state, x.effects + y.effects)
    decreases |a|
  {
    if |a| == 0 {
      assert a + b == b;
    } else {
      var first := next(st, a[0]);
      var x := Fold(next, first.state, a[1..]);
      var y := Fold(next, x.state, b);
      FoldAppend(next, first.state, a[1..], b);
      assert (a + b)[0] == a[0];
      assert (a + b)[1..] == a[1..] + b;
      assert first.effects + (x.effects + y.effects) == (first.effects + x.effects) + y.effects;
    }
  }

  /** The hook after `events`, starting from `st`: the final state and
      every effect issued on the way, in order. */
  function Run(st: HookState, events: seq<Event>): Step
  {
    Fold(Next, st, events)
  }

  /** The state and the full effect log after mounting and then `events`. */
  function Trace(events: seq<Event>): Step
  {
    var r := Run(Mounted.state, events);
    Step(r.state, Mounted.effects + r.effects)
  }

  /** Folding one more event is one more step after the fold. */
  lemma FoldSnoc(next: (HookState, Event) -> Step, st: HookState, a: seq<Event>, ev: Event)
    ensures var x := Fold(next, st, a);
            var s := next(x.state, ev);
            Fold(next, st, a + [ev]) == Step(s.state, x.effects + s.effects)
  {
    var x := Fold(next, st, a);
    var s := next(x.state, ev);
    FoldAppend(next, st, a, [ev]);
    assert [ev][0] == ev && [ev][1..] == [];
    assert Fold(next, s.state, []) == Step(s.state, []);
    assert s.effects + [] == s.effects;
  }

  /** Running two event sequences one after the other is running them
      concatenated. */
  lemma RunAppend(st: HookState, a: seq<Event>, b: seq<Event>)
    ensures var x := Run(st, a);
            var y := Run(x.state, b);
            Run(st, a + b) == Step(y.state, x.effects + y.effects)
  {
    FoldAppend(Next, st, a, b);
  }

  /** A single event is a single step. */
  lemma RunOne(st: HookState, ev: Event)
    ensures Run(st, [ev]) == Next(st, ev)
  {
    var first := Next(st, ev);
    assert [ev][0] == ev && [ev][1..] == [];
    assert Fold(Next, first.state, []) == Step(first.state, []);
    assert first.effects + [] == first.effects;
    assert Fold(Next, st, [ev]) == Step(first.state, first.effects + []);
  }

  /** The states the hook can be in. A user is present only if a check built
      it from a staff role, and while loading nobody is present. */
  predicate Valid(st: HookState)
  {
    && (st.adminUser.Some? ==> WellFormed(st.adminUser.value))
    && (st.loading ==> st.adminUser.None?)
  }

  lemma NextPreservesValid(st: HookState, ev: Event)
    requires Valid(st)
    ensures Valid(Next(st, ev).state)
  {
  }

  lemma {:induction false} RunPreservesValid(st: HookState, events: seq<Event>)
    requires Valid(st)
    ensures Valid(Run(st, events).state)
    decreases |events|
  {
    if |events| > 0 {
      NextPreservesValid(st, events[0]);
      RunPreservesValid(Next(st, events[0]).state, events[1..]);
    }
  }

  /** Every reachable state is valid. */
  lemma TraceValid(events: seq<Event>)
    ensures Valid(Trace(events).state)
  {
    RunPreservesValid(Mounted.state, events);
  }

  lemma {:induction false} RunKeepsLoading(st: HookState, events: seq<Event>)
    requires st.loading && st.adminUser.None?
    requires forall i :: 0 <= i < |events| ==> !events[i].CheckSettled?
    ensures Run(st, events).state.loading && Run(st, events).state.adminUser.None?
    decreases |events|
  {
    if |events| > 0 {
      assert !events[0].CheckSettled?;
      assert forall i :: 0 <= i < |events[1..]| ==> events[1..][i] == events[i + 1];
      RunKeepsLoading(Next(st, events[0]).state, events[1..]);
    }
  }

  /** Until some check settles the hook stays loading with nobody signed in. */
  lemma LoadingUntilSettled(events: seq<Event>)
    requires forall i :: 0 <= i < |events| ==> !events[i].CheckSettled?
    ensures Trace(events).state.loading && Trace(events).state.adminUser.None?
  {
    RunKeepsLoading(Mounted.state, events);
  }

  /** A trace grows one event at a time: the last event is one step from
      the state before it, and its effects follow the earlier ones. */
  lemma TraceStep(before: seq<Event>, ev: Event)
    ensures var t0 := Trace(before);
            var s := Next(t0.state, ev);
            Trace(before + [ev]) == Step(s.state, t0.effects + s.effects)
  {
    var x := Run(Mounted.state, before);
    var s := Next(x.state, ev);
    assert Run(Mounted.state, before + [ev]) == Step(s.state, x.effects + s.effects) by {
      FoldSnoc(Next, Mounted.state, before, ev);
    }
    var m := Mounted.effects;
    assert m + (x.effects + s.effects) == (m + x.effects) + s.effects;
  }

  /** A settle on a mounted hook navigates once on a denial, to the denial's
      target, and not at all on a grant. */
  lemma SettleNavigations(st: HookState, session: SessionFetch, lookup: RoleFetch)
    requires st.mounted
    ensures var c := CheckAdminAuth(session, lookup);
            var s := Next(st, CheckSettled(session, lookup));
            && Navigations(s.effects) == (if c.verdict.Deny? then 1 else 0)
            && (c.verdict.Deny? ==> Navigate(c.verdict.to) in s.effects)
  {
    var c := CheckAdminAuth(session, lookup);
    assert Count(c.issued, IsNavigation) == 0;
    if c.verdict.Deny? {
      CountAppend(c.issued, [Navigate(c.verdict.to)], IsNavigation);
    }
  }

  /** Only the cleanup clears `mounted`. */
  lemma {:induction false} RunKeepsMounted(st: HookState, events: seq<Event>)
    requires forall i :: 0 <= i < |events| ==> !events[i].Unmount?
    ensures Run(st, events).state.mounted == st.mounted
    decreases |events|
  {
    if |events| > 0 {
      assert !events[0].Unmount?;
      assert forall i :: 0 <= i < |events[1..]| ==> events[1..][i] == events[i + 1];
      RunKeepsMounted(Next(st, events[0]).state, events[1..]);
    }
  }

  lemma QuietAppend(a: seq<Effect>, b: seq<Effect>)
    requires Quiet(a) && Quiet(b)
    ensures Quiet(a + b)
  {
  }

  /** From an unmounted state no event changes anything, navigates or
      starts a check. */
  lemma {:induction false} RunWhileUnmounted(st: HookState, events: seq<Event>)
    requires !st.mounted
    ensures Run(st, events).state == st && Quiet(Run(st, events).effects)
    decreases |events|
  {
    if |events| > 0 {
      RunWhileUnmounted(st, events[1..]);
      QuietAppend(Next(st, events[0]).effects, Run(st, events[1..]).effects);
    }
  }

  /** After the cleanup has run, later events change no state and issue no
      navigation and no new check; only a late run's role query and error
      log can still appear. */
  lemma QuietAfterUnmount(before: seq<Event>, after: seq<Event>)
    ensures var t := Trace(before + [Unmount]);
            var u := Trace(before + [Unmount] + after);
            && u.state == t.state
            && !u.state.mounted
            && |t.effects| <= |u.effects|
            && u.effects[..|t.effects|] == t.effects
            && Quiet(u.effects[|t.effects|..])
  {
    var pre := before + [Unmount];
    var x := Run(Mounted.state, pre);
    assert !x.state.mounted by {
      FoldSnoc(Next, Mounted.state, before, Unmount);
    }
    var y := Run(x.state, after);
    assert Run(Mounted.state, pre + after) == Step(y.state, x.effects + y.effects) by {
      RunAppend(Mounted.state, pre, after);
    }
    RunWhileUnmounted(x.state, after);
    var m := Mounted.effects;
    assert m + (x.effects + y.effects) == (m + x.effects) + y.effects;
    SplitAppend(m + x.effects, y.effects);
  }

  /** The race the hook leaves open: whatever happened before, as long as
      the hook is still mounted, a check that grants access and settles
      after a sign-out installs its admin user. */
  lemma StaleCheckWinsAfterSignOut(before: seq<Event>, out: Option<Session>, session: SessionFetch, lookup: RoleFetch)
    requires Trace(before).state.mounted
    requires CheckAdminAuth(session, lookup).verdict.Grant?
    ensures var t := Trace(before + [AuthChange(SignedOut, out), CheckSettled(session, lookup)]);
            t.state.adminUser == Some(CheckAdminAuth(session, lookup).verdict.admin) && !t.state.loading
  {
    var signOut := AuthChange(SignedOut, out);
    var settle := CheckSettled(session, lookup);
    var x := Run(Mounted.state, before);
    RunAppend(Mounted.state, before, [signOut, settle]);
    assert [signOut, settle] == [signOut] + [settle];
    RunAppend(x.state, [signOut], [settle]);
    RunOne(x.state, signOut);
    RunOne(Next(x.state, signOut).state, settle);
  }
}

=== FILE: common.dfy ===
/** Sequence helpers shared by the admin pages. Every page keeps its rows in
    an immutable array and rebuilds it with JavaScript's `filter`, `map` and
    `reduce`; these are those three operations, stated once, with the facts
    the pages rely on. */
module Common {

  /** A value that may be absent (`null` / `undefined` in the source). */
  datatype Option<+T> = None | Some(value: T)

  /** `s.filter(keep).length`: how many elements satisfy `keep`. */
  function Count<T>(s: seq<T>, keep: T -> bool): (n: nat)
    ensures n <= |s|
    ensures n == 0 <==> forall i :: 0 <= i < |s| ==> !keep(s[i])
    ensures n == |s| <==> forall i :: 0 <= i < |s| ==> keep(s[i])
  {
    if |s| == 0 then 0
    else (if keep(s[0]) then 1 else 0) + Count(s[1..], keep)
  }

  /** Counting over a concatenation adds up the counts of the parts. */
  lemma {:induction false} CountAppend<T>(s: seq<T>, t: seq<T>, keep: T -> bool)
    ensures Count(s + t, keep) == Count(s, keep) + Count(t, keep)
    decreases |s|
  {
    if |s| == 0 {
      assert s + t == t;
    } else {
      assert (s + t)[1..] == s[1..] + t;
      CountAppend(s[1..], t, keep);
    }
  }

  /** Two conditions that never hold together are counted at most once per
      element, and every element is counted exactly when each one satisfies
      one of them. */
  lemma {:induction false} CountDisjoint<T>(s: seq<T>, p: T -> bool, q: T -> bool)
    requires forall i :: 0 <= i < |s| ==> !(p(s[i]) && q(s[i]))
    ensures Count(s, p) + Count(s, q) <= |s|
    ensures Count(s, p) + Count(s, q) == |s| <==> forall i :: 0 <= i < |s| ==> p(s[i]) || q(s[i])
    decreases |s|
  {
    if |s| > 0 {
      assert forall i :: 0 <= i < |s[1..]| ==> s[1..][i] == s[i + 1];
      CountDisjoint(s[1..], p, q);
      if forall i :: 0 <= i < |s| ==> p(s[i]) || q(s[i]) {
        assert forall i :: 0 <= i < |s[1..]| ==> p(s[1..][i]) || q(s[1..][i]);
      } else {
        var k :| 0 <= k < |s| && !(p(s[k]) || q(s[k]));
        if k > 0 {
          assert !(p(s[1..][k - 1]) || q(s[1..][k - 1]));
        }
      }
    }
  }

  /** `sub` keeps some of the elements of `s`, in their original order. */
  predicate IsSubseq<T(==)>(sub: seq<T>, s: seq<T>)
    decreases |s|
  {
    || |sub| == 0
    || (&& |s| > 0
        && ((sub[0] == s[0] && IsSubseq(sub[1..], s[1..])) || IsSubseq(sub, s[1..])))
  }

  /** `s.filter(keep)`. */
  function Filter<T(==)>(s: seq<T>, keep: T -> bool): (r: seq<T>)
    ensures IsSubseq(r, s)
    ensures forall i :: 0 <= i < |r| ==> r[i] in s && keep(r[i])
    ensures forall i :: 0 <= i < |s| && keep(s[i]) ==> s[i] in r
    ensures |r| == Count(s, keep)
  {
    if |s| == 0 then []
    else if keep(s[0]) then [s[0]] + Filter(s[1..], keep)
    else Filter(s[1..], keep)
  }

  /** A filter that keeps every element returns its input. */
  lemma {:induction false} FilterKeepsAll<T>(s: seq<T>, keep: T -> bool)
    requires forall i :: 0 <= i < |s| ==> keep(s[i])
    ensures Filter(s, keep) == s
    decreases |s|
  {
    if |s| > 0 {
      assert forall i :: 0 <= i < |s[1..]| ==> s[1..][i] == s[i + 1];
      FilterKeepsAll(s[1..], keep);
      assert [s[0]] + s[1..] == s;
    }
  }

  /** `s.map(x => hit(x) ? f(x) : x)`: the update-by-id pattern of every
      page. Rows that `hit` rejects are returned untouched. */
  function MapWhere<T>(s: seq<T>, hit: T -> bool, f: T -> T): (r: seq<T>)
    ensures |r| == |s|
    ensures forall i :: 0 <= i < |s| ==> r[i] == (if hit(s[i]) then f(s[i]) else s[i])
  {
    if |s| == 0 then []
    else [if hit(s[0]) then f(s[0]) else s[0]] + MapWhere(s[1..], hit, f)
  }

  /** `s.reduce((sum, x) => sum + f(x), 0)`. */
  function Sum<T>(s: seq<T>, f: T -> int): int
  {
    if |s| == 0 then 0 else f(s[0]) + Sum(s[1..], f)
  }

  /** Summing over a concatenation adds up the sums of the parts. */
  lemma {:induction false} SumAppend<T>(s: seq<T>, t: seq<T>, f: T -> int)
    ensures Sum(s + t, f) == Sum(s, f) + Sum(t, f)
    decreases |s|
  {
    if |s| == 0 {
      assert s + t == t;
    } else {
      assert (s + t)[1..] == s[1..] + t;
      SumAppend(s[1..], t, f);
    }
  }

  /** A sum of non-negative terms is non-negative, bounds each of its
      terms, and is zero exactly when every term is. */
  lemma {:induction false} SumNonNegative<T>(s: seq<T>, f: T -> int)
    requires forall i :: 0 <= i < |s| ==> f(s[i]) >= 0
    ensures Sum(s, f) >= 0
    ensures forall i :: 0 <= i < |s| ==> f(s[i]) <= Sum(s, f)
    ensures Sum(s, f) == 0 <==> forall i :: 0 <= i < |s| ==> f(s[i]) == 0
    decreases |s|
  {
    if |s| > 0 {
      assert forall i :: 0 <= i < |s[1..]| ==> s[1..][i] == s[i + 1];
      SumNonNegative(s[1..], f);
    }
  }

  /** An update that never changes the summed quantity leaves the sum alone. */
  lemma {:induction false} SumMapWhere<T>(s: seq<T>, hit: T -> bool, g: T -> T, f: T -> int)
    requires forall i :: 0 <= i < |s| ==> f(g(s[i])) == f(s[i])
    ensures Sum(MapWhere(s, hit, g), f) == Sum(s, f)
    decreases |s|
  {
    if |s| > 0 {
      assert forall i :: 0 <= i < |s[1..]| ==> s[1..][i] == s[i + 1];
      SumMapWhere(s[1..], hit, g, f);
      assert MapWhere(s, hit, g)[1..] == MapWhere(s[1..], hit, g);
    }
  }

  /** Splitting `a + b` at `|a|` gives back both parts. */
  lemma SplitAppend<T>(a: seq<T>, b: seq<T>)
    ensures |a| <= |a + b|
    ensures (a + b)[..|a|] == a && (a + b)[|a|..] == b
  {
  }

  /** When no two elements both pass, at most one does. */
  lemma {:induction false} CountAtMostOne<T>(s: seq<T>, keep: T -> bool)
    requires forall i, j :: 0 <= i < j < |s| ==> !(keep(s[i]) && keep(s[j]))
    ensures Count(s, keep) <= 1
    decreases |s|
  {
    if |s| > 0 {
      assert forall i :: 0 <= i < |s[1..]| ==> s[1..][i] == s[i + 1];
      CountAtMostOne(s[1..], keep);
      if keep(s[0]) {
        assert forall i :: 0 <= i < |s[1..]| ==> !keep(s[1..][i]);
      }
    }
  }
}

=== FILE: communication.dfy ===
/** `AdminCommunication`: composing a message, choosing its recipients and
    the sent/scheduled/recipient cards. */
module Communication {
  import opened Common

  /** A user the page can message, with their channel preferences. */
  datatype Contact = Contact(id: string, name: string, email: string, acceptsEmail: bool, acceptsWhatsapp: bool)

  /** A message row. `kind` is the source's `type` ("email" or "whatsapp");
      the three timestamps are optional, as in the source's `Message`. */
  datatype Message = Message(
    id: string,
    subject: string,
    content: string,
    kind: string,
    status: string,
    recipientsCount: nat,
    createdBy: string,
    sentAt: Option<string>,
    scheduledFor: Option<string>,
    createdAt: Option<string>)

  datatype MessageForm = MessageForm(
    subject: string,
    content: string,
    kind: string,
    sendImmediately: bool,
    scheduledDate: string,
    scheduledTime: string,
    targetAudience: string)

  const EmptyForm := MessageForm("", "", "email", true, "", "", "all")

  /** The page's state; `selected` is the custom selection of user ids. */
  datatype Page = Page(messages: seq<Message>, selected: seq<string>, form: MessageForm, dialogOpen: bool)

  /** Whether a contact takes messages on a channel: email for "email",
      WhatsApp for anything else. */
  predicate Accepts(c: Contact, kind: string)
  {
    if kind == "email" then c.acceptsEmail else c.acceptsWhatsapp
  }

  /** `Accepts` for one channel, as a filter. */
  function AcceptsKind(kind: string): Contact -> bool
  {
    (c: Contact) => Accepts(c, kind)
  }

  /** `recipientsCount` in `handleSubmit`. Only "custom" looks at the
      selection; every other audience counts the contacts that accept the
      channel, whatever the audience is called. */
  function RecipientCount(form: MessageForm, selected: seq<string>, contacts: seq<Contact>): (n: nat)
    ensures form.targetAudience == "custom" ==> n == |selected|
    ensures form.targetAudience != "custom" ==> n <= |contacts|
    ensures form.targetAudience != "custom" ==>
      (n == 0 <==> forall i :: 0 <= i < |contacts| ==> !Accepts(contacts[i], form.kind))
    ensures form.targetAudience != "custom" ==>
      (n == |contacts| <==> forall i :: 0 <= i < |contacts| ==> Accepts(contacts[i], form.kind))
    ensures form.targetAudience != "custom" ==> n == Count(contacts, AcceptsKind(form.kind))
  {
    if form.targetAudience == "custom" then |selected|
    else Count(contacts, AcceptsKind(form.kind))
  }

  /** Outside "custom" the count goes contact by contact: one contact counts
      one iff it accepts the channel, and two lists of contacts count the
      sum of their counts. */
  lemma RecipientsAreCounted(form: MessageForm, selected: seq<string>, a: seq<Contact>, b: seq<Contact>, c: Contact)
    ensures form.targetAudience != "custom" ==>
      RecipientCount(form, selected, [c]) == (if Accepts(c, form.kind) then 1 else 0)
    ensures form.targetAudience != "custom" ==>
      RecipientCount(form, selected, a + b) == RecipientCount(form, selected, a) + RecipientCount(form, selected, b)
  {
    assert [c][1..] == [];
    CountAppend(a, b, AcceptsKind(form.kind));
  }

  /** "active_users" and "course_completed" reach the same people as "all". */
  lemma NamedAudiencesAreAll(form: MessageForm, selected: seq<string>, contacts: seq<Contact>)
    ensures RecipientCount(form.(targetAudience := "active_users"), selected, contacts)
         == RecipientCount(form.(targetAudience := "all"), selected, contacts)
    ensures RecipientCount(form.(targetAudience := "course_completed"), selected, contacts)
         == RecipientCount(form.(targetAudience := "all"), selected, contacts)
  {
    var f := form.(targetAudience := "all");
    assert form.(targetAudience := "active_users").kind == f.kind;
    assert form.(targetAudience := "course_completed").kind == f.kind;
  }

  /** The message `handleSubmit` builds. `Date.now()`, the clock and the
      conversion of the chosen date and time to an ISO string are inputs. */
  function NewMessage(form: MessageForm, recipients: nat, id: string, now: string, scheduledFor: string): (m: Message)
    ensures m.id == id && m.subject == form.subject && m.content == form.content && m.kind == form.kind
    ensures m.recipientsCount == recipients && m.createdBy == "Admin"
    ensures form.sendImmediately ==>
      m.status == "sent" && m.sentAt == Some(now) && m.scheduledFor.None? && m.createdAt.None?
    ensures !form.sendImmediately ==>
      m.status == "scheduled" && m.sentAt.None? && m.scheduledFor == Some(scheduledFor) && m.createdAt == Some(now)
  {
    if form.sendImmediately then
      Message(id, form.subject, form.content, form.kind, "sent", recipients, "Admin", Some(now), None, None)
    else
      Message(id, form.subject, form.content, form.kind, "scheduled", recipients, "Admin", None, Some(scheduledFor), Some(now))
  }

  /** `handleSubmit`: prepend the new message, then clear the form and the
      selection and close the dialog. */
  function HandleSubmit(p: Page, contacts: seq<Contact>, id: string, now: string, scheduledFor: string): (r: Page)
    ensures |r.messages| == |p.messages| + 1
    ensures r.messages[1..] == p.messages
    ensures r.messages[0] == NewMessage(p.form, RecipientCount(p.form, p.selected, contacts), id, now, scheduledFor)
    ensures r.form == EmptyForm && r.selected == [] && !r.dialogOpen
  {
    var m := NewMessage(p.form, RecipientCount(p.form, p.selected, contacts), id, now, scheduledFor);
    Page([m] + p.messages, [], EmptyForm, false)
  }

  /** A checkbox in the custom selection: checking appends the id,
      unchecking drops every copy of it. */
  function SetChecked(selected: seq<string>, userId: string, checked: bool): (r: seq<string>)
    ensures checked ==> r == selected + [userId]
    ensures !checked ==> userId !in r && IsSubseq(r, selected)
    ensures !checked ==> forall i :: 0 <= i < |selected| && selected[i] != userId ==> selected[i] in r
    ensures !checked ==> |r| == |selected| - Count(selected, (x: string) => x == userId)
  {
    if checked then selected + [userId]
    else
      var keep := (x: string) => x != userId;
      var r := Filter(selected, keep);
      CountComplement(selected, userId);
      r
  }

  /** Every element either is `x` or is not. */
  lemma {:induction false} CountComplement(s: seq<string>, x: string)
    ensures Count(s, (y: string) => y != x) + Count(s, (y: string) => y == x) == |s|
    decreases |s|
  {
    if |s| > 0 {
      CountComplement(s[1..], x);
    }
  }

  predicate IsSent(m: Message) { m.status == "sent" }

  predicate IsScheduled(m: Message) { m.status == "scheduled" }

  function RecipientsOf(m: Message): int { m.recipientsCount }

  /** The "Enviadas" card. */
  function TotalSent(ms: seq<Message>): (n: nat)
    ensures n == |Filter(ms, IsSent)|
    ensures n <= |ms|
    ensures n == 0 <==> forall i :: 0 <= i < |ms| ==> ms[i].status != "sent"
    ensures n == |ms| <==> forall i :: 0 <= i < |ms| ==> ms[i].status == "sent"
  {
    Count(ms, IsSent)
  }

  /** The "Agendadas" card. */
  function TotalScheduled(ms: seq<Message>): (n: nat)
    ensures n == |Filter(ms, IsScheduled)|
    ensures n <= |ms|
    ensures n == 0 <==> forall i :: 0 <= i < |ms| ==> ms[i].status != "scheduled"
    ensures n == |ms| <==> forall i :: 0 <= i < |ms| ==> ms[i].status == "scheduled"
  {
    Count(ms, IsScheduled)
  }

  /** The "Destinatários" card: the sum of every message's recipients. */
  function TotalRecipients(ms: seq<Message>): (n: nat)
    ensures forall i :: 0 <= i < |ms| ==> ms[i].recipientsCount <= n
    ensures n == 0 <==> forall i :: 0 <= i < |ms| ==> ms[i].recipientsCount == 0
  {
    SumNonNegative(ms, RecipientsOf);
    Sum(ms, RecipientsOf)
  }

  /** The recipient card adds up message by message: one message counts its
      own recipients, and two lists count the sum of their totals. */
  lemma RecipientTotalsAreSums(a: seq<Message>, b: seq<Message>, m: Message)
    ensures TotalRecipients([m]) == m.recipientsCount
    ensures TotalRecipients(a + b) == TotalRecipients(a) + TotalRecipients(b)
  {
    assert [m][0] == m && [m][1..] == [];
    assert Sum([m], RecipientsOf) == RecipientsOf(m) + Sum([], RecipientsOf);
    SumAppend(a, b, RecipientsOf);
  }

  /** No message is both sent and scheduled, so the two cards together never
      exceed the number of messages (drafts are in neither). */
  lemma SentAndScheduledBounded(ms: seq<Message>)
    ensures TotalSent(ms) + TotalScheduled(ms) <= |ms|
    ensures TotalSent(ms) + TotalScheduled(ms) == |ms| <==>
      forall i :: 0 <= i < |ms| ==> ms[i].status == "sent" || ms[i].status == "scheduled"
  {
    CountDisjoint(ms, IsSent, IsScheduled);
  }

  /** Submitting moves the cards by exactly the new message: one more sent
      or scheduled, and its recipients added to the total. */
  lemma SubmitUpdatesTotals(p: Page, contacts: seq<Contact>, id: string, now: string, scheduledFor: string)
    ensures var r := HandleSubmit(p, contacts, id, now, scheduledFor);
            var n := RecipientCount(p.form, p.selected, contacts);
            && TotalRecipients(r.messages) == n + TotalRecipients(p.messages)
            && TotalSent(r.messages) == TotalSent(p.messages) + (if p.form.sendImmediately then 1 else 0)
            && TotalScheduled(r.messages) == TotalScheduled(p.messages) + (if p.form.sendImmediately then 0 else 1)
  {
    var r := HandleSubmit(p, contacts, id, now, scheduledFor);
    assert r.messages == [r.messages[0]] + p.messages;
    CountAppend([r.messages[0]], p.messages, IsSent);
    CountAppend([r.messages[0]], p.messages, IsScheduled);
    SumAppend([r.messages[0]], p.messages, RecipientsOf);
  }
}

=== FILE: courses.dfy ===
/** `AdminCourses`: the free-course video list, the add dialog, the active
    switch, the order-sorted table and the YouTube id extractor. */
module Courses {
  import opened Common
  import opened Text

  /** A video row. Rows added through the dialog carry the draft's
      description; the seed rows have none. */
  datatype Video = Video(
    id: int,
    title: string,
    youtubeUrl: string,
    description: Option<string>,
    category: string,
    order: int,
    active: bool,
    createdAt: string)

  /** The add dialog's fields (`newVideo`). */
  datatype VideoDraft = VideoDraft(
    title: string,
    youtubeUrl: string,
    description: string,
    category: string,
    order: int,
    active: bool)

  /** An empty draft whose default position is `order`. */
  function BlankDraft(order: int): VideoDraft
  {
    VideoDraft("", "", "", "", order, true)
  }

  datatype Page = Page(videos: seq<Video>, draft: VideoDraft, dialogOpen: bool)

  /** The page as first rendered: the draft proposes the next position. */
  function Initial(videos: seq<Video>): (p: Page)
    ensures p.draft.order == |videos| + 1
  {
    Page(videos, BlankDraft(|videos| + 1), false)
  }

  /** `handleAddVideo`: append the draft as video number `length + 1`,
      reset the draft to propose `length + 2`, close the dialog. The date
      string is an input. */
  function HandleAddVideo(p: Page, today: string): (r: Page)
    ensures |r.videos| == |p.videos| + 1
    ensures r.videos[..|p.videos|] == p.videos
    ensures var v := r.videos[|p.videos|];
      && v.id == |p.videos| + 1
      && v.title == p.draft.title && v.youtubeUrl == p.draft.youtubeUrl
      && v.description == Some(p.draft.description) && v.category == p.draft.category
      && v.order == p.draft.order && v.active == p.draft.active && v.createdAt == today
    ensures r.draft == BlankDraft(|r.videos| + 1)
    ensures !r.dialogOpen
  {
    var d := p.draft;
    var v := Video(|p.videos| + 1, d.title, d.youtubeUrl, Some(d.description), d.category, d.order, d.active, today);
    Page(p.videos + [v], BlankDraft(|p.videos| + 2), false)
  }

  /** Ids are exactly 1, 2, ..., n in list order. */
  predicate IdsAreOneToN(vs: seq<Video>)
  {
    forall i :: 0 <= i < |vs| ==> vs[i].id == i + 1
  }

  /** Adding keeps the ids consecutive, so the new id is fresh. */
  lemma AddKeepsIdsConsecutive(p: Page, today: string)
    requires IdsAreOneToN(p.videos)
    ensures IdsAreOneToN(HandleAddVideo(p, today).videos)
    ensures forall i :: 0 <= i < |p.videos| ==> p.videos[i].id != HandleAddVideo(p, today).videos[|p.videos|].id
  {
    var r := HandleAddVideo(p, today).videos;
    forall i | 0 <= i < |r|
      ensures r[i].id == i + 1
    {
      if i < |p.videos| {
        assert r[i] == r[..|p.videos|][i];
      }
    }
  }

  /** `toggleVideoStatus`: flip `active` of the videos with that id. */
  function ToggleVideoStatus(vs: seq<Video>, id: int): (r: seq<Video>)
    ensures |r| == |vs|
    ensures forall i :: 0 <= i < |vs| ==>
      && r[i].active == (if vs[i].id == id then !vs[i].active else vs[i].active)
      && r[i].(active := vs[i].active) == vs[i]
  {
    MapWhere(vs, (v: Video) => v.id == id, (v: Video) => v.(active := !v.active))
  }

  predicate SortedByOrder(vs: seq<Video>)
  {
    forall i, j :: 0 <= i < j < |vs| ==> vs[i].order <= vs[j].order
  }

  /** Insert `v` before the first video whose order is not smaller. */
  function InsertByOrder(v: Video, sorted: seq<Video>): (r: seq<Video>)
    requires SortedByOrder(sorted)
    ensures SortedByOrder(r)
    ensures multiset(r) == multiset(sorted) + multiset{v}
    ensures |r| == |sorted| + 1
    ensures r[0] == v || (|sorted| > 0 && r[0] == sorted[0])
    decreases |sorted|
  {
    if |sorted| == 0 || v.order <= sorted[0].order then
      [v] + sorted
    else
      var rest := InsertByOrder(v, sorted[1..]);
      assert sorted == [sorted[0]] + sorted[1..];
      assert forall j :: 0 <= j < |rest| ==> sorted[0].order <= rest[j].order by {
        assert sorted[0].order <= rest[0].order;
        assert forall j :: 0 <= j < |rest| ==> rest[0].order <= rest[j].order;
      }
      [sorted[0]] + rest
  }

  /** The table's `videos.sort((a, b) => a.order - b.order)`: the same
      videos, by non-decreasing order. */
  function SortByOrder(vs: seq<Video>): (r: seq<Video>)
    ensures SortedByOrder(r)
    ensures multiset(r) == multiset(vs)
    ensures |r| == |vs|
  {
    if |vs| == 0 then []
    else
      assert vs == [vs[0]] + vs[1..];
      InsertByOrder(vs[0], SortByOrder(vs[1..]))
  }

  predicate IsIdChar(c: char)
  {
    ('a' <= c <= 'z') || ('A' <= c <= 'Z') || ('0' <= c <= '9') || c == '_' || c == '-'
  }

  predicate IsVideoId(s: string)
  {
    |s| == 11 && forall i :: 0 <= i < |s| ==> IsIdChar(s[i])
  }

  /** The text that can precede an id in the URL shapes the page accepts. */
  const IdMarkers: seq<string> := ["youtu.be/", "/embed/", "/v/", "/e/", "?v=", "&v="]

  /** The eleven characters after the first of `markers` that starts `s`
      and is followed by an id. */
  function IdAfterMarker(s: string, markers: seq<string>): (r: Option<string>)
    ensures r.Some? ==> IsVideoId(r.value) && Includes(s, r.value)
    decreases |markers|
  {
    if |markers| == 0 then None
    else
      var m := markers[0];
      if m <= s && |s| >= |m| + 11 && IsVideoId(s[|m|..|m| + 11]) then
        IncludesAt(s, |m|, s[|m|..|m| + 11]);
        Some(s[|m|..|m| + 11])
      else
        IdAfterMarker(s, markers[1..])
  }

  /** The first position where a marker is followed by eleven id characters. */
  function ScanForId(s: string): (r: Option<string>)
    ensures r.Some? ==> IsVideoId(r.value) && Includes(s, r.value)
    decreases |s|
  {
    if |s| == 0 then None
    else
      var here := IdAfterMarker(s, IdMarkers);
      if here.Some? then here else ScanForId(s[1..])
  }

  /** A marker of the list that starts `s` and is followed by an id makes
      the marker search succeed. */
  lemma {:induction false} MarkerIsFound(s: string, markers: seq<string>, k: nat)
    requires k < |markers|
    requires markers[k] <= s && |s| >= |markers[k]| + 11 && IsVideoId(s[|markers[k]|..|markers[k]| + 11])
    ensures IdAfterMarker(s, markers).Some?
    decreases k
  {
    if k > 0 && IdAfterMarker(s, markers).None? {
      MarkerIsFound(s, markers[1..], k - 1);
    }
  }

  /** A marker followed by an id anywhere in the URL is found: the scan
      returns some id, never `None`. */
  lemma {:induction false} PresentIdIsFound(pre: string, m: string, id: string, rest: string)
    requires m in IdMarkers && IsVideoId(id)
    ensures ScanForId(pre + m + id + rest).Some?
    decreases |pre|
  {
    var s := pre + m + id + rest;
    if |pre| == 0 {
      assert pre + m == m;
      assert m <= s && s[|m|..|m| + 11] == id;
      var k :| 0 <= k < |IdMarkers| && IdMarkers[k] == m;
      MarkerIsFound(s, IdMarkers, k);
    } else if IdAfterMarker(s, IdMarkers).None? {
      assert s[1..] == pre[1..] + m + id + rest;
      PresentIdIsFound(pre[1..], m, id, rest);
    }
  }

  /** `getYouTubeId`: a YouTube URL's eleven-character video id, if any. */
  function GetYouTubeId(url: string): (r: Option<string>)
    ensures r.Some? ==> IsVideoId(r.value) && Includes(url, r.value)
    ensures !Includes(url, "youtube.com/") && !Includes(url, "youtu.be/") ==> r.None?
  {
    if Includes(url, "youtube.com/") || Includes(url, "youtu.be/") then ScanForId(url) else None
  }

  /** `youtube.com` directly followed by `/v/`, `/e/` or `/embed/` and an
      id gives an id. */
  lemma {:induction false} YouTubeIdIsFound(pre: string, m: string, id: string, rest: string)
    requires m in ["/v/", "/e/", "/embed/"] && IsVideoId(id)
    ensures GetYouTubeId(pre + "youtube.com" + m + id + rest).Some?
  {
    var url := pre + "youtube.com" + m + id + rest;
    assert url == (pre + "youtube.com") + m + id + rest;
    assert url[|pre|..] == "youtube.com" + m + id + rest;
    assert "youtube.com/" <= url[|pre|..];
    IncludesAt(url, |pre|, "youtube.com/");
    PresentIdIsFound(pre + "youtube.com", m, id, rest);
  }

  /** `youtu.be/` directly followed by an id gives an id. */
  lemma {:induction false} ShortLinkIdIsFound(pre: string, id: string, rest: string)
    requires IsVideoId(id)
    ensures GetYouTubeId(pre + "youtu.be/" + id + rest).Some?
  {
    var url := pre + "youtu.be/" + id + rest;
    assert url[|pre|..] == "youtu.be/" + id + rest;
    IncludesAt(url, |pre|, "youtu.be/");
    PresentIdIsFound(pre, "youtu.be/", id, rest);
  }

  /** `youtube.com/`, then printable non-space text, then `?v=` or `&v=`
      and an id gives an id. */
  lemma {:induction false} QueryIdIsFound(pre: string, mid: string, m: string, id: string, rest: string)
    requires forall i :: 0 <= i < |mid| ==> '!' <= mid[i] <= '~'
    requires m in ["?v=", "&v="] && IsVideoId(id)
    ensures GetYouTubeId(pre + "youtube.com/" + mid + m + id + rest).Some?
  {
    var url := pre + "youtube.com/" + mid + m + id + rest;
    assert url == (pre + "youtube.com/" + mid) + m + id + rest;
    assert url[|pre|..] == "youtube.com/" + mid + m + id + rest;
    IncludesAt(url, |pre|, "youtube.com/");
    PresentIdIsFound(pre + "youtube.com/" + mid, m, id, rest);
  }
}

=== FILE: offers.dfy ===
/** `AdminOffers`: premium offers with their create/edit dialog, the
    featured and active switches, and the click/conversion cards. */
module Offers {
  import opened Common
  import opened Text

  datatype Offer = Offer(
    id: string,
    name: string,
    hotmartUrl: string,
    couponCode: string,
    discountPercentage: int,
    isFeatured: bool,
    isActive: bool,
    clicks: nat,
    conversions: nat,
    createdAt: string)

  /** The dialog's fields: exactly the part of an offer the user edits. */
  datatype OfferForm = OfferForm(
    name: string,
    hotmartUrl: string,
    couponCode: string,
    discountPercentage: int,
    isFeatured: bool,
    isActive: bool)

  const EmptyForm := OfferForm("", "", "", 0, false, true)

  /** The page's state. `editing` is the row captured by `openEditDialog`. */
  datatype Page = Page(offers: seq<Offer>, editing: Option<Offer>, form: OfferForm, dialogOpen: bool)

  /** The fields `openEditDialog` copies into the form. */
  function FormOf(o: Offer): OfferForm
  {
    OfferForm(o.name, o.hotmartUrl, o.couponCode, o.discountPercentage, o.isFeatured, o.isActive)
  }

  /** Two offers agree on every field the form does not cover: the id, the
      counters and the creation time. */
  predicate SameOutsideForm(a: Offer, b: Offer)
  {
    a.id == b.id && a.clicks == b.clicks && a.conversions == b.conversions && a.createdAt == b.createdAt
  }

  /** An offer is determined by its form fields and the rest. */
  lemma FormAndRestDetermineOffer(a: Offer, b: Offer)
    requires SameOutsideForm(a, b) && FormOf(a) == FormOf(b)
    ensures a == b
  {
  }

  /** `{ ...offer, ...formData }`: the form's fields win. */
  function Merge(o: Offer, f: OfferForm): (r: Offer)
    ensures FormOf(r) == f
    ensures SameOutsideForm(r, o)
  {
    o.(name := f.name, hotmartUrl := f.hotmartUrl, couponCode := f.couponCode,
       discountPercentage := f.discountPercentage, isFeatured := f.isFeatured, isActive := f.isActive)
  }

  /** The edit branch of `handleSubmit`. */
  function ApplyEdit(os: seq<Offer>, id: string, f: OfferForm): (r: seq<Offer>)
    ensures |r| == |os|
    ensures forall i :: 0 <= i < |os| && os[i].id == id ==> FormOf(r[i]) == f
    ensures forall i :: 0 <= i < |os| && os[i].id != id ==> r[i] == os[i]
    ensures forall i :: 0 <= i < |os| ==> SameOutsideForm(r[i], os[i])
  {
    MapWhere(os, (o: Offer) => o.id == id, (o: Offer) => Merge(o, f))
  }

  /** The offer the create branch appends; its counters start at zero. */
  function NewOffer(id: string, f: OfferForm, now: string): (o: Offer)
    ensures FormOf(o) == f && o.id == id && o.createdAt == now
    ensures o.clicks == 0 && o.conversions == 0
  {
    Offer(id, f.name, f.hotmartUrl, f.couponCode, f.discountPercentage, f.isFeatured, f.isActive, 0, 0, now)
  }

  /** `handleSubmit`: edit the captured offer or append a new one, then
      reset the form and close the dialog. */
  function HandleSubmit(p: Page, newId: string, now: string): (r: Page)
    ensures r.form == EmptyForm && !r.dialogOpen && r.editing.None?
    ensures p.editing.Some? ==> r.offers == ApplyEdit(p.offers, p.editing.value.id, p.form)
    ensures p.editing.None? ==>
      && |r.offers| == |p.offers| + 1
      && r.offers[..|p.offers|] == p.offers
      && r.offers[|p.offers|] == NewOffer(newId, p.form, now)
  {
    var os := if p.editing.Some? then ApplyEdit(p.offers, p.editing.value.id, p.form)
              else p.offers + [NewOffer(newId, p.form, now)];
    Page(os, None, EmptyForm, false)
  }

  /** `openEditDialog`: capture the offer and load its fields into the form. */
  function OpenEditDialog(p: Page, o: Offer): (r: Page)
    ensures r.editing == Some(o) && r.form == FormOf(o) && r.dialogOpen
    ensures r.offers == p.offers
  {
    p.(editing := Some(o), form := FormOf(o), dialogOpen := true)
  }

  predicate UniqueIds(os: seq<Offer>)
  {
    forall i, j :: 0 <= i < j < |os| ==> os[i].id != os[j].id
  }

  /** Opening an offer for editing and submitting untouched gives the list
      back unchanged. */
  lemma EditRoundTrip(p: Page, o: Offer, newId: string, now: string)
    requires o in p.offers && UniqueIds(p.offers)
    ensures HandleSubmit(OpenEditDialog(p, o), newId, now).offers == p.offers
  {
    var os := p.offers;
    var r := ApplyEdit(os, o.id, FormOf(o));
    forall i | 0 <= i < |os|
      ensures r[i] == os[i]
    {
      if os[i].id == o.id {
        var k :| 0 <= k < |os| && os[k] == o;
        assert k == i;
        FormAndRestDetermineOffer(r[i], os[i]);
      }
    }
  }

  /** `toggleFeatured`: flip `isFeatured` of the offers with that id. */
  function ToggleFeatured(os: seq<Offer>, id: string): (r: seq<Offer>)
    ensures |r| == |os|
    ensures forall i :: 0 <= i < |os| ==>
      && r[i].isFeatured == (if os[i].id == id then !os[i].isFeatured else os[i].isFeatured)
      && r[i].(isFeatured := os[i].isFeatured) == os[i]
  {
    MapWhere(os, (o: Offer) => o.id == id, (o: Offer) => o.(isFeatured := !o.isFeatured))
  }

  /** `toggleActive`: flip `isActive` of the offers with that id. */
  function ToggleActive(os: seq<Offer>, id: string): (r: seq<Offer>)
    ensures |r| == |os|
    ensures forall i :: 0 <= i < |os| ==>
      && r[i].isActive == (if os[i].id == id then !os[i].isActive else os[i].isActive)
      && r[i].(isActive := os[i].isActive) == os[i]
  {
    MapWhere(os, (o: Offer) => o.id == id, (o: Offer) => o.(isActive := !o.isActive))
  }

  function ClicksOf(o: Offer): int { o.clicks }

  function ConversionsOf(o: Offer): int { o.conversions }

  /** `totalClicks`: the sum of every offer's clicks. */
  function TotalClicks(os: seq<Offer>): (n: nat)
    ensures forall i :: 0 <= i < |os| ==> os[i].clicks <= n
    ensures n == 0 <==> forall i :: 0 <= i < |os| ==> os[i].clicks == 0
  {
    SumNonNegative(os, ClicksOf);
    Sum(os, ClicksOf)
  }

  /** `totalConversions`: the sum of every offer's conversions. */
  function TotalConversions(os: seq<Offer>): (n: nat)
    ensures forall i :: 0 <= i < |os| ==> os[i].conversions <= n
    ensures n == 0 <==> forall i :: 0 <= i < |os| ==> os[i].conversions == 0
  {
    SumNonNegative(os, ConversionsOf);
    Sum(os, ConversionsOf)
  }

  /** The totals are sums: one offer contributes its own counters, and the
      totals of two lists add up. */
  lemma TotalsAreSums(a: seq<Offer>, b: seq<Offer>, o: Offer)
    ensures TotalClicks([o]) == o.clicks && TotalConversions([o]) == o.conversions
    ensures TotalClicks(a + b) == TotalClicks(a) + TotalClicks(b)
    ensures TotalConversions(a + b) == TotalConversions(a) + TotalConversions(b)
  {
    assert [o][0] == o && [o][1..] == [];
    assert Sum([o], ClicksOf) == ClicksOf(o) + Sum([], ClicksOf);
    assert Sum([o], ConversionsOf) == ConversionsOf(o) + Sum([], ConversionsOf);
    SumAppend(a, b, ClicksOf);
    SumAppend(a, b, ConversionsOf);
  }

  /** Neither the switches, nor editing, nor creating changes the totals:
      no dialog touches the counters and a new offer starts at zero. */
  lemma TotalsUnchangedByEdits(p: Page, id: string, newId: string, now: string)
    ensures TotalClicks(ToggleFeatured(p.offers, id)) == TotalClicks(p.offers)
    ensures TotalClicks(ToggleActive(p.offers, id)) == TotalClicks(p.offers)
    ensures TotalConversions(ToggleFeatured(p.offers, id)) == TotalConversions(p.offers)
    ensures TotalConversions(ToggleActive(p.offers, id)) == TotalConversions(p.offers)
    ensures TotalClicks(HandleSubmit(p, newId, now).offers) == TotalClicks(p.offers)
    ensures TotalConversions(HandleSubmit(p, newId, now).offers) == TotalConversions(p.offers)
  {
    var os := p.offers;
    SumMapWhere(os, (o: Offer) => o.id == id, (o: Offer) => o.(isFeatured := !o.isFeatured), ClicksOf);
    SumMapWhere(os, (o: Offer) => o.id == id, (o: Offer) => o.(isActive := !o.isActive), ClicksOf);
    SumMapWhere(os, (o: Offer) => o.id == id, (o: Offer) => o.(isFeatured := !o.isFeatured), ConversionsOf);
    SumMapWhere(os, (o: Offer) => o.id == id, (o: Offer) => o.(isActive := !o.isActive), ConversionsOf);
    var r := HandleSubmit(p, newId, now).offers;
    if p.editing.Some? {
      var f := p.form;
      SumMapWhere(os, (o: Offer) => o.id == p.editing.value.id, (o: Offer) => Merge(o, f), ClicksOf);
      SumMapWhere(os, (o: Offer) => o.id == p.editing.value.id, (o: Offer) => Merge(o, f), ConversionsOf);
    } else {
      var o := NewOffer(newId, p.form, now);
      assert r == os + [o];
      SumAppend(os, [o], ClicksOf);
      SumAppend(os, [o], ConversionsOf);
    }
  }

  /** The conversion card before formatting: the literal "0" when nobody
      clicked, otherwise the ratio that `toFixed(1)` prints. */
  datatype Rate = ZeroLiteral | Ratio(conversions: nat, clicks: nat)

  function ConversionRate(os: seq<Offer>): (r: Rate)
    ensures r == ZeroLiteral <==> TotalClicks(os) == 0
    ensures r.Ratio? ==> r.clicks == TotalClicks(os) > 0 && r.conversions == TotalConversions(os)
  {
    if TotalClicks(os) > 0 then Ratio(TotalConversions(os), TotalClicks(os)) else ZeroLiteral
  }

  /** The coupon input's `onChange`: `e.target.value.toUpperCase()`. */
  function CouponInput(typed: string): (code: string)
    ensures |code| == |typed|
    ensures forall i :: 0 <= i < |code| ==> !IsLowerAscii(code[i])
    ensures Lower(code) == Lower(typed)
  {
    UpperIsIdempotent(typed);
    LowerOfUpper(typed);
    Upper(typed)
  }

  /** Re-entering an already upper-cased coupon changes nothing. */
  lemma CouponInputIdempotent(typed: string)
    ensures CouponInput(CouponInput(typed)) == CouponInput(typed)
  {
    UpperIsIdempotent(typed);
  }
}

=== FILE: protected_route.dfy ===
/** `AdminProtectedRoute`: the view-level guard over the hook's state. */
module ProtectedRoute {
  import opened Common
  import opened AuthAdmin

  /** What the guard renders: the loading skeleton, nothing, or the wrapped
      children. */
  datatype View = Skeleton | Nothing | Children

  /** The guard's three-way branch over `(loading, adminUser)`. */
  function Render(adminUser: Option<AdminUser>, loading: bool): (v: View)
    ensures v == Skeleton <==> loading
    ensures v == Nothing <==> !loading && adminUser.None?
    ensures v == Children <==> !loading && adminUser.Some?
  {
    if loading then Skeleton
    else if adminUser.None? then Nothing
    else Children
  }

  /** The guard on top of the hook, after mounting and then `events`. */
  function Guard(events: seq<Event>): (v: View)
    ensures v == Skeleton <==> Trace(events).state.loading
    ensures v == Nothing <==> !Trace(events).state.loading && Trace(events).state.adminUser.None?
    ensures v == Children <==> !Trace(events).state.loading && Trace(events).state.adminUser.Some?
  {
    var st := Trace(events).state;
    Render(st.adminUser, st.loading)
  }

  /** Children are only ever shown to an administrator or a moderator, with
      the flags that belong to that role. */
  lemma ChildrenOnlyForStaff(events: seq<Event>)
    ensures Guard(events) == Children ==>
      && Trace(events).state.adminUser.Some?
      && IsStaff(Trace(events).state.adminUser.value.role)
      && WellFormed(Trace(events).state.adminUser.value)
  {
    TraceValid(events);
  }

  /** Before any check settles, the skeleton is shown. */
  lemma SkeletonUntilSettled(events: seq<Event>)
    requires forall i :: 0 <= i < |events| ==> !events[i].CheckSettled?
    ensures Guard(events) == Skeleton
  {
    LoadingUntilSettled(events);
  }

  /** The first settled check decides the view: whatever auth events came
      before it, as long as the guard is still mounted, it shows the
      children for a staff role, and otherwise nothing, with exactly one
      navigation issued by the settle itself. */
  lemma FirstCheckDecides(before: seq<Event>, session: SessionFetch, lookup: RoleFetch)
    requires forall i :: 0 <= i < |before| ==> !before[i].CheckSettled? && !before[i].Unmount?
    ensures var c := CheckAdminAuth(session, lookup);
            var events := before + [CheckSettled(session, lookup)];
            var t0, t := Trace(before), Trace(events);
            && |t0.effects| <= |t.effects|
            && t.effects[..|t0.effects|] == t0.effects
            && (Guard(events) == Children <==> c.verdict.Grant?)
            && (c.verdict.Deny? ==> Guard(events) == Nothing && Navigate(c.verdict.to) in t.effects[|t0.effects|..])
            && Navigations(t.effects[|t0.effects|..]) == (if c.verdict.Deny? then 1 else 0)
  {
    var settle := CheckSettled(session, lookup);
    var t0 := Trace(before);
    LoadingUntilSettled(before);
    RunKeepsMounted(Mounted.state, before);
    TraceStep(before, settle);
    var s := Next(t0.state, settle);
    SplitAppend(t0.effects, s.effects);
    SettleNavigations(t0.state, session, lookup);
  }
}

=== FILE: sidebar.dfy ===
/** `AdminSidebar`: the fixed menu and its active-route highlighting. */
module Sidebar {
  import opened Common
  import opened Text

  /** A menu entry; `exact` defaults to false where the table omits it. */
  datatype MenuItem = MenuItem(title: string, url: string, exact: bool)

  const MenuItems: seq<MenuItem> := [
    MenuItem("Dashboard", "/admin", true),
    MenuItem("Gestão de Usuários", "/admin/users", false),
    MenuItem("Cursos Gratuitos", "/admin/courses", false),
    MenuItem("Artigos do Blog", "/admin/articles", false),
    MenuItem("Ofertas Hotmart", "/admin/offers", false),
    MenuItem("Webhooks", "/admin/webhooks", false),
    MenuItem("Comunicação", "/admin/communication", false),
    MenuItem("Configurações", "/admin/settings", false)
  ]

  /** `isActive(path, exact)` against the location's `pathname`. Exact
      items match one path; the others match every path they are a prefix
      of, character by character (so `/admin/usersX` also lights up
      `/admin/users`). */
  predicate IsActive(currentPath: string, path: string, exact: bool)
    ensures IsActive(currentPath, path, exact) <==>
      if exact then currentPath == path else path <= currentPath
  {
    StartsWithIsPrefix(currentPath, path);
    if exact then currentPath == path else StartsWith(currentPath, path)
  }

  /** Prefix matching is not segment matching: a path that merely extends
      an entry's URL by any text, such as `/admin/users` + `ettings`,
      highlights that entry. */
  lemma PrefixIsNotSegment(i: nat, rest: string)
    requires 1 <= i < |MenuItems|
    ensures ItemActive(MenuItems[i].url + rest, MenuItems[i])
  {
    var url := MenuItems[i].url;
    assert url <= url + rest;
  }

  /** An item's own URL always highlights it, in either mode. */
  lemma OwnUrlIsActive(path: string, exact: bool)
    ensures IsActive(path, path, exact)
  {
  }

  predicate ItemActive(currentPath: string, item: MenuItem)
  {
    IsActive(currentPath, item.url, item.exact)
  }

  /** The dashboard entry is exact: only `/admin` itself highlights it. */
  lemma DashboardOnlyOnItself(currentPath: string)
    ensures ItemActive(currentPath, MenuItems[0]) <==> currentPath == "/admin"
  {
  }

  /** Two different entries' URLs: neither is a prefix of the other. */
  lemma UrlsIndependent(i: nat, j: nat)
    requires 1 <= i < |MenuItems| && 1 <= j < |MenuItems| && i != j
    ensures !(MenuItems[i].url <= MenuItems[j].url)
  {
    var u, v := MenuItems[i].url, MenuItems[j].url;
    assert u[..7] == "/admin/";
    // Past the shared `/admin/`, any two of these URLs differ within the
    // first three letters of their last segment.
    if |u| <= |v| {
      assert u[7] != v[7] || u[8] != v[8] || u[9] != v[9];
    }
  }

  /** Whatever the path, at most one menu entry is highlighted. */
  lemma AtMostOneActive(currentPath: string, i: nat, j: nat)
    requires i < j < |MenuItems|
    ensures !(ItemActive(currentPath, MenuItems[i]) && ItemActive(currentPath, MenuItems[j]))
  {
    var a, b := MenuItems[i], MenuItems[j];
    assert !b.exact;
    if i == 0 {
      // The dashboard is active only on `/admin`, shorter than `b`'s URL.
      assert |b.url| > |a.url|;
    } else {
      PrefixesOfOnePath(a.url, b.url, currentPath);
      UrlsIndependent(i, j);
      UrlsIndependent(j, i);
    }
  }

  /** Two prefixes of one path are prefixes of each other. */
  lemma PrefixesOfOnePath(u: string, v: string, path: string)
    ensures u <= path && v <= path ==> u <= v || v <= u
  {
    if u <= path && v <= path && |u| <= |v| {
      assert u == v[..|u|];
    } else if u <= path && v <= path {
      assert v == u[..|v|];
    }
  }

  /** The filter `ItemActive` as a function value, for one path. */
  function ActiveAt(currentPath: string): MenuItem -> bool
  {
    item => ItemActive(currentPath, item)
  }

  /** The entries of `items` a path highlights, when no two of them can
      be highlighted together. */
  function ActiveAmong(currentPath: string, items: seq<MenuItem>): (r: seq<MenuItem>)
    requires forall i, j :: 0 <= i < j < |items| ==>
      !(ItemActive(currentPath, items[i]) && ItemActive(currentPath, items[j]))
    ensures |r| <= 1
    ensures forall k :: 0 <= k < |r| ==> r[k] in items && ItemActive(currentPath, r[k])
    ensures forall k :: 0 <= k < |items| && ItemActive(currentPath, items[k]) ==> items[k] in r
  {
    var keep := ActiveAt(currentPath);
    assert forall k :: 0 <= k < |items| ==> keep(items[k]) == ItemActive(currentPath, items[k]);
    CountAtMostOne(items, keep);
    Filter(items, keep)
  }

  /** The menu entries a path highlights: at most one. */
  function ActiveItems(currentPath: string): (r: seq<MenuItem>)
    ensures |r| <= 1
    ensures forall k :: 0 <= k < |r| ==> r[k] in MenuItems && ItemActive(currentPath, r[k])
    ensures forall k :: 0 <= k < |MenuItems| && ItemActive(currentPath, MenuItems[k]) ==> MenuItems[k] in r
  {
    forall i, j | 0 <= i < j < |MenuItems| {
      AtMostOneActive(currentPath, i, j);
    }
    ActiveAmong(currentPath, MenuItems)
  }

  const HighlightedClass := "bg-primary text-primary-foreground font-medium shadow-sm"
  const PlainClass := "hover:bg-card-hover transition-smooth"

  /** `getNavClass`: the highlighted classes exactly for the active entry. */
  function NavClass(currentPath: string, path: string, exact: bool): (cls: string)
    ensures cls == HighlightedClass <==> IsActive(currentPath, path, exact)
    ensures cls == PlainClass <==> !IsActive(currentPath, path, exact)
  {
    if IsActive(currentPath, path, exact) then HighlightedClass else PlainClass
  }
}

=== FILE: text.dfy ===
/** The string operations the admin screens call: `toLowerCase`,
    `toUpperCase`, `startsWith` and `includes`. Case conversion is modelled
    on ASCII letters only; every other character is left as it is. */
module Text {

  predicate IsUpperAscii(c: char) { 'A' <= c <= 'Z' }

  predicate IsLowerAscii(c: char) { 'a' <= c <= 'z' }

  function LowerChar(c: char): char
  {
    if IsUpperAscii(c) then (c as int + 32) as char else c
  }

  function UpperChar(c: char): char
  {
    if IsLowerAscii(c) then (c as int - 32) as char else c
  }

  /** `s.toLowerCase()` on the ASCII letters. */
  function Lower(s: string): (r: string)
    ensures |r| == |s|
    ensures forall i :: 0 <= i < |s| ==> r[i] == LowerChar(s[i])
  {
    if |s| == 0 then "" else [LowerChar(s[0])] + Lower(s[1..])
  }

  /** `s.toUpperCase()` on the ASCII letters. */
  function Upper(s: string): (r: string)
    ensures |r| == |s|
    ensures forall i :: 0 <= i < |s| ==> r[i] == UpperChar(s[i])
  {
    if |s| == 0 then "" else [UpperChar(s[0])] + Upper(s[1..])
  }

  /** Lower-casing leaves no upper-case letter behind and is idempotent. */
  lemma LowerIsIdempotent(s: string)
    ensures forall i :: 0 <= i < |Lower(s)| ==> !IsUpperAscii(Lower(s)[i])
    ensures Lower(Lower(s)) == Lower(s)
  {
  }

  /** Upper-casing leaves no lower-case letter behind and is idempotent. */
  lemma UpperIsIdempotent(s: string)
    ensures forall i :: 0 <= i < |Upper(s)| ==> !IsLowerAscii(Upper(s)[i])
    ensures Upper(Upper(s)) == Upper(s)
  {
  }

  /** Upper-casing changes only the case of letters: lower-casing the
      result gives what lower-casing the input gives. */
  lemma LowerOfUpper(s: string)
    ensures Lower(Upper(s)) == Lower(s)
  {
    assert forall i :: 0 <= i < |s| ==> Lower(Upper(s))[i] == Lower(s)[i];
  }

  /** `s.startsWith(prefix)`, compared character by character. */
  predicate StartsWith(s: string, prefix: string)
    decreases |prefix|
  {
    |prefix| == 0 || (|s| > 0 && s[0] == prefix[0] && StartsWith(s[1..], prefix[1..]))
  }

  /** Character-wise `startsWith` is exactly the prefix relation on sequences. */
  lemma {:induction false} StartsWithIsPrefix(s: string, prefix: string)
    ensures StartsWith(s, prefix) <==> prefix <= s
    decreases |prefix|
  {
    if |prefix| > 0 && |s| > 0 {
      StartsWithIsPrefix(s[1..], prefix[1..]);
      if prefix <= s {
        assert prefix[1..] <= s[1..];
      }
    }
  }

  /** `hay.includes(needle)`: `needle` starts at some position of `hay`. */
  predicate Includes(hay: string, needle: string)
    decreases |hay|
  {
    StartsWith(hay, needle) || (|hay| > 0 && Includes(hay[1..], needle))
  }

  /** `includes` holds iff `needle` is a prefix of some suffix of `hay`. */
  lemma {:induction false} IncludesIffOccurs(hay: string, needle: string)
    ensures Includes(hay, needle) <==> exists k :: 0 <= k <= |hay| && needle <= hay[k..]
    decreases |hay|
  {
    StartsWithIsPrefix(hay, needle);
    assert hay[0..] == hay;
    if |hay| > 0 {
      IncludesIffOccurs(hay[1..], needle);
      if Includes(hay, needle) && !StartsWith(hay, needle) {
        var k :| 0 <= k <= |hay[1..]| && needle <= hay[1..][k..];
        assert hay[1..][k..] == hay[k + 1..];
      }
      if k :| 0 <= k <= |hay| && needle <= hay[k..] {
        if k > 0 {
          assert hay[1..][k - 1..] == hay[k..];
        }
      }
    }
  }

  /** A needle found at a known position is included. */
  lemma IncludesAt(hay: string, k: nat, needle: string)
    requires k <= |hay| && needle <= hay[k..]
    ensures Includes(hay, needle)
  {
    IncludesIffOccurs(hay, needle);
  }

  /** The empty search term occurs in every string. */
  lemma EmptyIsIncluded(hay: string)
    ensures Includes(hay, "")
  {
  }

  /** The case-insensitive search of the list pages:
      `field.toLowerCase().includes(term.toLowerCase())`. */
  predicate MatchesTerm(field: string, term: string)
  {
    Includes(Lower(field), Lower(term))
  }
}

=== FILE: users.dfy ===
/** `AdminUsers`: the user list, its search box, the status badge and the
    count cards. */
module Users {
  import opened Common
  import opened Text

  datatype UserRow = UserRow(
    id: int,
    name: string,
    email: string,
    phone: string,
    createdAt: string,
    lastAccess: string,
    status: string)

  /** A user is listed when the name or the e-mail contains the term,
      ignoring case. */
  predicate Matches(u: UserRow, term: string)
  {
    MatchesTerm(u.name, term) || MatchesTerm(u.email, term)
  }

  /** `Matches` for one term, as a filter. */
  function Matching(term: string): UserRow -> bool
  {
    (u: UserRow) => Matches(u, term)
  }

  /** `filteredUsers`: the matching users, in list order. */
  function FilteredUsers(users: seq<UserRow>, term: string): (r: seq<UserRow>)
    ensures IsSubseq(r, users)
    ensures forall i :: 0 <= i < |r| ==> r[i] in users && Matches(r[i], term)
    ensures forall i :: 0 <= i < |users| && Matches(users[i], term) ==> users[i] in r
    ensures term == "" ==> r == users
    ensures |r| == Count(users, Matching(term))
  {
    var keep := Matching(term);
    if term == "" then
      forall i | 0 <= i < |users|
        ensures keep(users[i])
      {
        EmptyIsIncluded(Lower(users[i].name));
      }
      FilterKeepsAll(users, keep);
      Filter(users, keep)
    else
      Filter(users, keep)
  }

  /** The two badges `getStatusBadge` can draw. */
  datatype Badge = ActiveBadge | BlockedBadge

  /** `getStatusBadge`: "active" is shown as active, every other status as
      blocked. */
  function StatusBadge(status: string): (b: Badge)
    ensures b == ActiveBadge <==> status == "active"
    ensures b == BlockedBadge <==> status != "active"
  {
    if status == "active" then ActiveBadge else BlockedBadge
  }

  predicate IsActiveUser(u: UserRow) { u.status == "active" }

  predicate IsBlockedUser(u: UserRow) { u.status == "blocked" }

  /** The "Usuários Ativos" card. */
  function ActiveCount(users: seq<UserRow>): (n: nat)
    ensures n == |Filter(users, IsActiveUser)|
    ensures n <= |users|
    ensures n == 0 <==> forall i :: 0 <= i < |users| ==> users[i].status != "active"
    ensures n == |users| <==> forall i :: 0 <= i < |users| ==> users[i].status == "active"
  {
    Count(users, IsActiveUser)
  }

  /** The "Usuários Bloqueados" card: it counts the status "blocked" only,
      while the badge labels every non-active status as blocked. */
  function BlockedCount(users: seq<UserRow>): (n: nat)
    ensures n == |Filter(users, IsBlockedUser)|
    ensures n <= |users|
    ensures n == 0 <==> forall i :: 0 <= i < |users| ==> users[i].status != "blocked"
    ensures n == |users| <==> forall i :: 0 <= i < |users| ==> users[i].status == "blocked"
  {
    Count(users, IsBlockedUser)
  }

  /** The two cards never add up to more than the total, and add up to it
      exactly when every status is "active" or "blocked". */
  lemma StatusCardsBounded(users: seq<UserRow>)
    ensures ActiveCount(users) + BlockedCount(users) <= |users|
    ensures ActiveCount(users) + BlockedCount(users) == |users| <==>
      forall i :: 0 <= i < |users| ==> users[i].status == "active" || users[i].status == "blocked"
  {
    CountDisjoint(users, IsActiveUser, IsBlockedUser);
  }

  predicate ShowsBlockedBadge(u: UserRow) { StatusBadge(u.status) == BlockedBadge }

  /** Every user not counted as active carries the blocked badge, but the
      blocked card counts only the status "blocked": the card matches the
      badges exactly when no other status occurs. */
  lemma BlockedCardVersusBadges(users: seq<UserRow>)
    ensures Count(users, ShowsBlockedBadge) == |users| - ActiveCount(users)
    ensures BlockedCount(users) <= Count(users, ShowsBlockedBadge)
    ensures BlockedCount(users) == Count(users, ShowsBlockedBadge) <==>
      forall i :: 0 <= i < |users| ==> users[i].status == "active" || users[i].status == "blocked"
  {
    CountDisjoint(users, IsActiveUser, ShowsBlockedBadge);
    StatusCardsBounded(users);
  }
}

=== FILE: webhooks.dfy ===
/** `AdminWebhooks`: the webhook list, its create/edit dialog, the active
    switch, the per-webhook log view and the summary cards. */
module Webhooks {
  import opened Common

  datatype Webhook = Webhook(
    id: string,
    name: string,
    url: string,
    eventType: string,
    isActive: bool,
    lastTriggered: Option<string>,
    status: string,
    responseTime: int,
    createdAt: string)

  /** The dialog's fields: exactly the part of a webhook the user edits. */
  datatype WebhookForm = WebhookForm(name: string, url: string, eventType: string, isActive: bool)

  const EmptyForm := WebhookForm("", "", "", true)

  datatype WebhookLog = WebhookLog(
    id: string,
    webhookId: string,
    webhookName: string,
    triggeredAt: string,
    status: string,
    responseCode: int,
    responseTime: int)

  /** The page's state. `editing` is the row captured by `openEditDialog`. */
  datatype Page = Page(
    webhooks: seq<Webhook>,
    logs: seq<WebhookLog>,
    editing: Option<Webhook>,
    form: WebhookForm,
    dialogOpen: bool,
    shownLogs: seq<WebhookLog>,
    logsOpen: bool)

  /** The fields `openEditDialog` copies into the form. */
  function FormOf(w: Webhook): WebhookForm
  {
    WebhookForm(w.name, w.url, w.eventType, w.isActive)
  }

  /** Two rows agree on every field the form does not cover. */
  predicate SameOutsideForm(a: Webhook, b: Webhook)
  {
    && a.id == b.id
    && a.lastTriggered == b.lastTriggered
    && a.status == b.status
    && a.responseTime == b.responseTime
    && a.createdAt == b.createdAt
  }

  /** A row is determined by its form fields and the rest. */
  lemma FormAndRestDetermineRow(a: Webhook, b: Webhook)
    requires SameOutsideForm(a, b) && FormOf(a) == FormOf(b)
    ensures a == b
  {
  }

  /** `{ ...webhook, ...formData }`: the form's fields win. */
  function Merge(w: Webhook, f: WebhookForm): (r: Webhook)
    ensures FormOf(r) == f
    ensures SameOutsideForm(r, w)
  {
    w.(name := f.name, url := f.url, eventType := f.eventType, isActive := f.isActive)
  }

  /** The edit branch of `handleSubmit`: every row carrying the edited id
      takes the form's fields; nothing else changes. */
  function ApplyEdit(ws: seq<Webhook>, id: string, f: WebhookForm): (r: seq<Webhook>)
    ensures |r| == |ws|
    ensures forall i :: 0 <= i < |ws| && ws[i].id == id ==> FormOf(r[i]) == f
    ensures forall i :: 0 <= i < |ws| && ws[i].id != id ==> r[i] == ws[i]
    ensures forall i :: 0 <= i < |ws| ==> SameOutsideForm(r[i], ws[i])
  {
    MapWhere(ws, (w: Webhook) => w.id == id, (w: Webhook) => Merge(w, f))
  }

  /** The row the create branch appends. `Date.now()` and the ISO clock are
      inputs. */
  function NewWebhook(id: string, f: WebhookForm, now: string): (w: Webhook)
    ensures FormOf(w) == f && w.id == id && w.createdAt == now
    ensures w.lastTriggered.None? && w.status == "pending" && w.responseTime == 0
  {
    Webhook(id, f.name, f.url, f.eventType, f.isActive, None, "pending", 0, now)
  }

  /** `handleSubmit`: edit the captured row or append a new one, then reset
      the form and close the dialog. */
  function HandleSubmit(p: Page, newId: string, now: string): (r: Page)
    ensures r.form == EmptyForm && !r.dialogOpen && r.editing.None?
    ensures r.logs == p.logs && r.shownLogs == p.shownLogs && r.logsOpen == p.logsOpen
    ensures p.editing.Some? ==> r.webhooks == ApplyEdit(p.webhooks, p.editing.value.id, p.form)
    ensures p.editing.None? ==>
      && |r.webhooks| == |p.webhooks| + 1
      && r.webhooks[..|p.webhooks|] == p.webhooks
      && r.webhooks[|p.webhooks|] == NewWebhook(newId, p.form, now)
  {
    var ws := if p.editing.Some? then ApplyEdit(p.webhooks, p.editing.value.id, p.form)
              else p.webhooks + [NewWebhook(newId, p.form, now)];
    p.(webhooks := ws, editing := None, form := EmptyForm, dialogOpen := false)
  }

  /** `openEditDialog`: capture the row and load its fields into the form. */
  function OpenEditDialog(p: Page, w: Webhook): (r: Page)
    ensures r.editing == Some(w) && r.form == FormOf(w) && r.dialogOpen
    ensures r.webhooks == p.webhooks && r.logs == p.logs
  {
    p.(editing := Some(w), form := FormOf(w), dialogOpen := true)
  }

  predicate UniqueIds(ws: seq<Webhook>)
  {
    forall i, j :: 0 <= i < j < |ws| ==> ws[i].id != ws[j].id
  }

  /** Opening a row for editing and submitting the form untouched gives the
      list back unchanged. */
  lemma EditRoundTrip(p: Page, w: Webhook, newId: string, now: string)
    requires w in p.webhooks && UniqueIds(p.webhooks)
    ensures HandleSubmit(OpenEditDialog(p, w), newId, now).webhooks == p.webhooks
  {
    var ws := p.webhooks;
    var r := ApplyEdit(ws, w.id, FormOf(w));
    forall i | 0 <= i < |ws|
      ensures r[i] == ws[i]
    {
      if ws[i].id == w.id {
        var k :| 0 <= k < |ws| && ws[k] == w;
        assert k == i;
        FormAndRestDetermineRow(r[i], ws[i]);
      }
    }
  }

  /** `toggleActive`: flip `isActive` of the rows with that id. */
  function ToggleActive(ws: seq<Webhook>, id: string): (r: seq<Webhook>)
    ensures |r| == |ws|
    ensures forall i :: 0 <= i < |ws| ==>
      && r[i].isActive == (if ws[i].id == id then !ws[i].isActive else ws[i].isActive)
      && r[i].(isActive := ws[i].isActive) == ws[i]
  {
    MapWhere(ws, (w: Webhook) => w.id == id, (w: Webhook) => w.(isActive := !w.isActive))
  }

  /** Toggling the same row twice restores the list. */
  lemma ToggleActiveTwice(ws: seq<Webhook>, id: string)
    ensures ToggleActive(ToggleActive(ws, id), id) == ws
  {
    var r := ToggleActive(ToggleActive(ws, id), id);
    assert forall i :: 0 <= i < |ws| ==> r[i] == ws[i];
  }

  /** Whether a log belongs to the webhook, as a filter. */
  function OfWebhook(webhookId: string): WebhookLog -> bool
  {
    (l: WebhookLog) => l.webhookId == webhookId
  }

  /** The logs of one webhook, in their original order, every copy kept. */
  function LogsFor(logs: seq<WebhookLog>, webhookId: string): (r: seq<WebhookLog>)
    ensures IsSubseq(r, logs)
    ensures forall i :: 0 <= i < |r| ==> r[i] in logs && r[i].webhookId == webhookId
    ensures forall i :: 0 <= i < |logs| && logs[i].webhookId == webhookId ==> logs[i] in r
    ensures |r| == Count(logs, OfWebhook(webhookId))
  {
    Filter(logs, OfWebhook(webhookId))
  }

  /** `viewLogs`: show the clicked webhook's logs. */
  function ViewLogs(p: Page, w: Webhook): (r: Page)
    ensures r.logsOpen && r.shownLogs == LogsFor(p.logs, w.id)
    ensures r.webhooks == p.webhooks && r.logs == p.logs
  {
    p.(shownLogs := LogsFor(p.logs, w.id), logsOpen := true)
  }

  predicate IsActiveHook(w: Webhook) { w.isActive }

  /** The "Webhooks Ativos" card. */
  function ActiveCount(ws: seq<Webhook>): (n: nat)
    ensures n == |Filter(ws, IsActiveHook)|
    ensures n <= |ws|
    ensures n == 0 <==> forall i :: 0 <= i < |ws| ==> !ws[i].isActive
    ensures n == |ws| <==> forall i :: 0 <= i < |ws| ==> ws[i].isActive
  {
    Count(ws, IsActiveHook)
  }

  /** Creating a webhook adds one to the active card exactly when the new
      row starts active. */
  lemma CreateActiveCount(p: Page, newId: string, now: string)
    requires p.editing.None?
    ensures ActiveCount(HandleSubmit(p, newId, now).webhooks) ==
            ActiveCount(p.webhooks) + (if p.form.isActive then 1 else 0)
  {
    var r := HandleSubmit(p, newId, now).webhooks;
    assert r == p.webhooks + [NewWebhook(newId, p.form, now)];
    CountAppend(p.webhooks, [NewWebhook(newId, p.form, now)], IsActiveHook);
  }

  predicate Succeeded(l: WebhookLog) { l.status == "success" }

  /** The "Taxa de Sucesso" card: `Math.round(successes / total * 100)`, or
      0 without logs. Rounding half up is done on the exact ratio. */
  function SuccessRate(logs: seq<WebhookLog>): (pct: int)
    ensures 0 <= pct <= 100
    ensures |logs| == 0 ==> pct == 0
    ensures |logs| > 0 && Count(logs, Succeeded) == |logs| ==> pct == 100
    ensures Count(logs, Succeeded) == 0 ==> pct == 0
    // Half-up rounding: `pct - 1/2 <= 100 * successes / total < pct + 1/2`,
    // scaled by `2 * total`; exactly one integer satisfies it.
    ensures |logs| > 0 ==>
      2 * |logs| * pct <= 200 * Count(logs, Succeeded) + |logs| < 2 * |logs| * pct + 2 * |logs|
  {
    if |logs| > 0 then
      var s, n := Count(logs, Succeeded), |logs|;
      RoundedPercentBounds(s, n);
      DivisionBounds(200 * s + n, 2 * n);
      (200 * s + n) / (2 * n)
    else 0
  }

  /** Euclidean division brackets its dividend. */
  lemma DivisionBounds(a: nat, b: nat)
    requires b > 0
    ensures b * (a / b) <= a < b * (a / b) + b
  {
  }

  lemma RoundedPercentBounds(s: nat, n: nat)
    requires 0 < n && s <= n
    ensures 0 <= (200 * s + n) / (2 * n) <= 100
    ensures s == 0 ==> (200 * s + n) / (2 * n) == 0
    ensures s == n ==> (200 * s + n) / (2 * n) == 100
  {
    var a, b := 200 * s + n, 2 * n;
    var q := a / b;
    DivisionBounds(a, b);
    // `b * q <= a < b * 101`, so `q < 101`.
    ScaledLess(b, q, 101);
    if s == 0 {
      // `b * q <= n < b * 1`.
      ScaledLess(b, q, 1);
    }
    if s == n {
      // `b * 99 < b * 100 + n = a < b * q + b`, so `q > 99`.
      ScaledLess(b, 99, q + 1);
    }
  }

  /** Multiplying by a positive number keeps a strict order. */
  lemma ScaledLess(b: nat, x: int, y: int)
    requires b > 0
    ensures b * x < b * y ==> x < y
  {
    if x >= y {
      assert b * x - b * y == b * (x - y);
    }
  }
}
